=== FILE: README.md ===
# Theatre booking rules, in Dafny

A model of the booking core of a Django REST theatre service. The service
keeps halls, plays, performances (a play in a hall at a show time), users'
reservations and tickets (a row and seat for one performance, belonging to
one reservation). This project models:

- the schema's guarantees:
  - primary keys;
  - the unique `(performance, row, seat)` constraint on tickets;
  - foreign keys with `ON DELETE CASCADE`;
  - each model's default ordering;
  - a hall's capacity;
  - an artist's display name.
- reservation creation: each requested ticket is validated, a reservation
  owned by the requester is created, and its tickets are bulk-inserted in one
  transaction. Either all of it happens or nothing does.
- the `taken_places` of a performance.
- the `tickets_available` annotation of the performance list.
- the query-parameter filters of the play, artist and performance lists, and
  the per-user reservation list.
- the serializer each view set picks per action.
- the `IsAdminUserOrReadOnly` and `IsAuthenticated` permissions.

The whole database is one immutable value, `Models.Db`. It holds a sequence of
records per table. Every operation is a pure function from a database to a new
database, or to a `Result` whose `Failure` stands for an exception.
`Models.Wf` is the database invariant:
- distinct primary keys;
- distinct ticket seat keys;
- every foreign key resolves.

`Lifecycle` proves that every sequence of the modelled writes keeps `Wf`. In
particular, no seat of a performance is ever sold twice. The modelled writes
are the following:
- creating a hall, a play, a performance or a reservation;
- deleting a reservation, a performance, a hall, a play or a user, with the
  cascades.

Of these, the API routes play, performance and reservation creation, and
performance deletion. The rest are writes made through the admin site.

| file | module | models |
|---|---|---|
| results.dfy | `Results` | `Option`, `Result`, the errors the code raises |
| seqs.dfy | `Seqs` | query-set primitives: filter, lookup by key, unique constraints, `ORDER BY`, `DISTINCT`, fresh ids |
| text.dfy | `Text` | `__icontains`, `str.split`, Python's `int()` on a string, string order |
| models.dfy | `Models` | tables, the invariant, orderings, row creation, cascading deletes |
| serializers.dfy | `Serializers` | ticket validation, the atomic reservation create, `taken_places` |
| availability.dfy | `Availability` | `tickets_available` as written, and free seats |
| filters.dfy | `Filters` | `_params_to_ints` and the `get_queryset` filters |
| actions.dfy | `Actions` | routed actions and `get_serializer_class` |
| permissions.dfy | `Permissions` | the permission classes |
| lifecycle.dfy | `Lifecycle` | the database over a sequence of the modelled writes |

Three inputs are parameters rather than modelled code:
- the seat-bounds rule `Ticket.validate_tickets`, which is not defined in
  `theatre/models.py`, is `seatOk: (row, seat, hall) -> bool`;
- the clock reading for `created_at` is the `now` argument of a reservation;
- the requesting user is a `user` id, or a `Permissions.User`.

## Model

| member | source | states |
|---|---|---|
| `Models.Capacity` | theatre/models.py:38-40 | A hall's capacity is non-negative when both dimensions are, and zero exactly when it has no rows or no seats per row |
| `Models.CapacityCountsSeats` | theatre/models.py:38-40 | For non-negative dimensions, `rows * seat_in_row` is the number of (row, seat) positions numbered from 1 |
| `Models.ArtistName` | theatre/models.py:9-10 | The display name is the first name, one space, then the last name: its length and each of the three parts |
| `Models.ArtistNameSplits` | theatre/models.py:9-10 | When neither name contains a space, splitting the display name on spaces gives back exactly the two names |
| `Models.TicketsOf` | theatre/models.py:74 | The tickets of a performance are exactly the stored tickets whose performance key is that id |
| `Models.FindPerformance` | theatre/serializers.py:188 | Resolving a performance key yields a stored performance with that id, and yields nothing exactly when no row has it |
| `Models.FindHall` | theatre/serializers.py:188 | Resolving a hall key yields a stored hall with that id, and yields nothing exactly when no row has it |
| `Models.ListTickets` | theatre/models.py:79 | Tickets are listed as a permutation of the table, ordered by row and then by seat |
| `Models.ListPerformances` | theatre/models.py:51-52 | Performances are listed as a permutation of the table, latest show time first |
| `Models.ListReservations` | theatre/models.py:67-68 | Reservations are listed as a permutation of the table, newest first |
| `Models.ListPlays` | theatre/models.py:26-27 | Plays are listed as a permutation of the table, by title ascending |
| `Text.StrLeTotal` | theatre/models.py:27 | Any two titles are comparable in the title order |
| `Text.StrLeTransitive` | theatre/models.py:27 | The title order is transitive, so sorting by it is well defined |
| `Models.EmptyWf` | theatre/models.py:77-78 | The empty database satisfies every key, uniqueness and foreign-key constraint |
| `Models.AddHall` | theatre/models.py:33-36 | A new hall is appended with the given name and dimensions under an unused id; no other table changes |
| `Models.AddHallWf` | theatre/models.py:33-36 | Adding a hall keeps the database well formed |
| `Models.AddPlay` | theatre/models.py:20-24 | A new play is appended with the given title and links under an unused id; no other table changes |
| `Models.AddPlayWf` | theatre/models.py:20-24 | Adding a play keeps the database well formed |
| `Models.AddPerformance` | theatre/models.py:46-49 | A performance is added exactly when its play and hall exist, under an unused id; otherwise the unresolved key is reported |
| `Models.AddPerformanceWf` | theatre/models.py:46-49 | Adding a performance keeps the database well formed |
| `Models.DeleteReservation` | theatre/models.py:75 | Deleting a reservation removes it and exactly its tickets; halls, plays and performances are untouched |
| `Models.DeleteReservationWf` | theatre/models.py:75 | Deleting a reservation keeps the database well formed |
| `Models.DeletePerformance` | theatre/models.py:74 | Deleting a performance removes it and exactly its tickets; the other tables are untouched |
| `Models.DeletePerformanceWf` | theatre/models.py:74 | Deleting a performance keeps the database well formed |
| `Models.DeleteHall` | theatre/models.py:48 | Deleting a hall removes it, exactly its performances, and exactly the tickets of those performances |
| `Models.DeleteHallWf` | theatre/models.py:48 | Deleting a hall keeps the database well formed: the cascade leaves no dangling ticket |
| `Models.DeletePlay` | theatre/models.py:47 | Deleting a play removes it, exactly its performances, and exactly the tickets of those performances |
| `Models.DeletePlayWf` | theatre/models.py:47 | Deleting a play keeps the database well formed |
| `Models.DeleteUser` | theatre/models.py:60-62 | Deleting a user removes exactly that user's reservations and their tickets |
| `Models.DeleteUserWf` | theatre/models.py:60-62 | Deleting a user keeps the database well formed |
| `Text.IContains` | theatre/views.py:174 | `__icontains` (also used by the artist search, lines 136-137) with an empty term matches every text, and a match needs a term no longer than the text |
| `Text.Contains` | theatre/views.py:174 | Substring search answers true exactly when the needle occurs at some position of the text |
| `Text.IContainsIgnoresCase` | theatre/views.py:174 | `__icontains` gives the same answer when either side is upper-cased first |
| `Text.Split` | theatre/views.py:163 | `str.split(",")` gives one more piece than there are commas, no piece holds a comma, and joining the pieces with commas gives the input back |
| `Text.SplitJoin` | theatre/views.py:163 | Splitting pieces joined by a separator they do not contain gives back the pieces |
| `Text.ParseInt` | theatre/views.py:163 | `int()` raises on a string that is empty once space, tab, line feed, vertical tab, form feed and carriage return are skipped at both ends, and on one holding more than 4300 digits |
| `Text.ParseDigitLimit` | theatre/views.py:163 | `int()` of 4301 digits raises, and of 4300 digits converts |
| `Text.ParseFileSeparator` | theatre/views.py:163 | The separators 0x1C-0x1F are not skipped as whitespace: a piece that starts with one makes `int()` raise, whatever follows, as `int("\x1c5")` does |
| `Text.ParseUnsigned` | theatre/views.py:163 | `int()` of 1 to 4300 decimal digits is their decimal value |
| `Text.ParseShowInt` | theatre/views.py:163 | `int(str(n)) == n` for every integer `n` of at most 4300 digits, the ones `str()` can write |
| `Serializers.ValidateTicket` | theatre/serializers.py:183-191 | A validated ticket comes back unchanged. Success means its performance exists and the seat rule accepts the seat in that performance's hall. An unknown performance is reported as such, and no other kind of error arises |
| `Serializers.ValidateTicketIff` | theatre/serializers.py:183-191 | In a well-formed database a ticket validates exactly when the seat rule accepts it in its performance's hall; a known performance can fail only by the seat rule |
| `Serializers.ValidateAll` | theatre/serializers.py:224-226 | A ticket list validates exactly when every entry does, and a failure is the error of some entry |
| `Serializers.InsertTicket` | theatre/models.py:78 | One insert succeeds exactly when its seat key is not yet in the table, appending the row; otherwise it reports that seat as taken |
| `Serializers.InsertAll` | theatre/serializers.py:240 | A successful bulk insert appends the whole batch in order; a failure names a seat of the batch |
| `Serializers.InsertAllIff` | theatre/serializers.py:240 | A bulk insert succeeds exactly when the batch repeats no seat key and no key is already in the table |
| `Serializers.InsertAllKeepsUnique` | theatre/models.py:77-78 | Over a table meeting the unique constraint, a bulk insert succeeds exactly when the table with the batch appended still meets it |
| `Serializers.InsertBatch` | theatre/serializers.py:233-240 | The atomic insert of a reservation's tickets: all rows are added, or the database is not returned at all; success has the same condition as above |
| `Serializers.TicketsFor` | theatre/serializers.py:236-239 | One ticket row per entry, in entry order, carrying the entry's performance, row and seat and the new reservation |
| `Serializers.TicketsForKeys` | theatre/serializers.py:236-239 | The new rows carry exactly the requested seat keys, and meet the unique constraint exactly when the entries repeat no seat |
| `Serializers.CreateAsWritten` | theatre/serializers.py:232-235 | The two `pop` calls of `create` succeed only when both keys are in `validated_data`; otherwise a missing key is raised |
| `Serializers.CreateAsWrittenAlwaysFails` | theatre/serializers.py:223-235 | With the keys `validated_data` actually holds, `create` raises `KeyError` on `tickets` |
| `Serializers.CreateReservation` | theatre/serializers.py:232-241 | An empty ticket list is refused, and an invalid entry's validation error is reported as it is. Any failure leaves the database unchanged. A success stamps the requester and `now` on a reservation with an unused id, and appends exactly that reservation and its tickets |
| `Serializers.CreateReservationIff` | theatre/serializers.py:232-241 | A reservation is created exactly when the list is non-empty, every entry validates, no two entries name the same seat, and no entry's seat is already sold. When only seats clash, the error names a requested seat |
| `Serializers.CreateReservationWf` | theatre/serializers.py:233-240 | Creating a reservation keeps the database well formed |
| `Serializers.CreateReservationTickets` | theatre/serializers.py:236-240 | The new reservation's tickets are exactly one per entry, copying its row, seat and performance; every other ticket is untouched |
| `Serializers.BookFreeSeat` | theatre/serializers.py:233-240 | Booking one free, valid seat succeeds and leaves that seat sold |
| `Serializers.BookTakenSeat` | theatre/models.py:78 | Booking a sold seat fails with that seat taken and changes nothing |
| `Serializers.SameSeatTwice` | theatre/models.py:77-78 | Of two bookings of the same seat, the first succeeds; the second fails and leaves exactly one ticket for the seat |
| `Serializers.Places` | theatre/serializers.py:198-201 | Each ticket is shown as its row and seat, position by position |
| `Serializers.PlacesMembership` | theatre/serializers.py:198-201 | A (row, seat) pair is shown exactly when some listed ticket has it |
| `Serializers.PlaceIsKey` | theatre/models.py:78 | Among one performance's tickets, no two share a (row, seat) pair |
| `Serializers.TakenPlaces` | theatre/serializers.py:204-207 | `taken_places` holds the places of the performance's tickets, each as often as it is sold, one entry per ticket. A pair is listed exactly when some ticket of the performance holds it. Entries are ordered by row then seat, and none repeats when the unique constraint holds |
| `Serializers.PlacesPermutation` | theatre/serializers.py:204-207 | Listing the tickets in another order lists the same places, each as often |
| `Availability.TicketsAvailableAsWritten` | theatre/views.py:204-209 | The annotation as written agrees with capacity minus tickets sold exactly when rows plus seats per row equals rows times seats per row |
| `Availability.TicketsAvailable` | theatre/views.py:204-209 | The annotation of a performance is read through the performance's own hall: rows plus seats per row minus its tickets, and undefined exactly when the hall key does not resolve |
| `Availability.FreeSeats` | theatre/models.py:38-40 | A performance's free seats are its own hall's capacity minus its tickets, undefined exactly when the hall key does not resolve |
| `Availability.TakenSetSize` | theatre/models.py:78 | The sold positions of a performance are as many as its tickets |
| `Availability.SeatsRemainingCountsFree` | theatre/models.py:38-40 | If every ticket of the performance lies inside its hall, capacity minus tickets sold is exactly the number of free positions |
| `Availability.AsWrittenCountsFreeIff` | theatre/views.py:204-209 | `tickets_available` as written equals the number of free positions exactly when rows plus seats per row equals rows times seats per row |
| `Availability.AsWrittenUndercounts` | theatre/views.py:205-209 | In a 10-row hall with 15 seats per row and nothing sold, the annotation reports 25 where 150 seats are free |
| `Availability.TicketsForCount` | theatre/serializers.py:236-240 | A reservation inserts as many tickets for a performance as it has entries for it |
| `Availability.ReservationLowersAvailability` | theatre/views.py:205-209 | A successful reservation raises a performance's tickets sold by its number of entries for it, and lowers that performance's `tickets_available` and free seats by as much; the hall still resolves exactly when it did |
| `Availability.ReservationLeavesOthers` | theatre/views.py:205-209 | A reservation with no entry for a performance leaves that performance's `tickets_available` unchanged |
| `Availability.OneTicketLowersByOne` | theatre/views.py:205-209 | Inserting one ticket lowers `tickets_available` of its own performance by exactly one and leaves every other performance's value unchanged |
| `Filters.ParseAll` | theatre/views.py:163 | Every piece converts exactly when each converts alone. The result keeps the pieces' order and length. A failure is `ValueError` for some piece that does not convert |
| `Filters.ParamsToInts` | theatre/views.py:160-163 | A parsed id list has one entry per comma plus one, in order, each the `int()` of its piece. A failure names a piece that is not an integer |
| `Filters.ParamsToIntsRoundTrip` | theatre/views.py:160-163 | A non-empty list of integers of at most 4300 digits each, written out with commas, parses back to itself |
| `Filters.ParamsToIntsEmptyPiece` | theatre/views.py:163 | A list with an empty piece, as in `1,,2`, fails |
| `Filters.JoinOn` | theatre/views.py:178 | The rows of the many-to-many join are exactly the plays with some link among the listed ids |
| `Filters.Narrow` | theatre/views.py:176-182 | An id filter applies only when its parameter is non-empty. It keeps exactly the plays linked to a listed id, and a malformed list raises the parse error |
| `Filters.PlayRows` | theatre/views.py:171-182 | The rows selected before `distinct()` are exactly the input plays passing each given filter (title contains the term ignoring case, some listed genre, some listed artist); a malformed id list raises, the genre list's error first and the artist list's otherwise |
| `Filters.PlayFilter` | theatre/views.py:165-184 | The play list succeeds exactly when the given id lists parse, and a genre parse error is reported first, the artist list's error otherwise. On success no play appears twice and plays come by title |
| `Filters.PlayFilterMembers` | theatre/views.py:165-184 | A play is listed exactly when it is in the input, its title contains the title parameter ignoring case, it has a listed genre, and it has a listed artist, each condition applying when its parameter is given |
| `Filters.PlayFilterUnfiltered` | theatre/views.py:171-184 | With no parameters, a play table without repeats comes back whole, as a permutation |
| `Filters.JoinRepeatsDistinctCollapses` | theatre/views.py:176-184 | A play linked to two listed genres appears twice in the join and once after `distinct()` |
| `Filters.ArtistSearch` | theatre/views.py:131-138 | With a non-empty search term, an artist is listed exactly when its first or last name contains the term ignoring case; without one, every artist is |
| `Filters.ArtistSearchFindsByName` | theatre/views.py:133-138 | Searching for an artist's own first or last name lists that artist |
| `Filters.ArtistSearchIgnoresCase` | theatre/views.py:136-137 | Upper-casing the search term does not change the result |
| `Filters.NarrowByPlay` | theatre/views.py:234-235 | The `play` filter keeps exactly the performances of the parsed play id, and a malformed id raises |
| `Filters.PerformanceFilter` | theatre/views.py:228-241 | With `date` given as a parsed day, the performance list succeeds exactly when the `play` parameter is absent, empty or an integer. It reports the malformed value otherwise, and lists latest first |
| `Filters.PerformanceFilterMembers` | theatre/views.py:228-241 | A performance is listed exactly when it is in the input, of the requested play and on the requested day, each when requested |
| `Filters.PerformanceFilterIntersects` | theatre/views.py:228-241 | Both filters together list exactly the performances listed by each filter alone |
| `Filters.PerformanceFilterByPlayId` | theatre/views.py:234-235 | Requesting play `str(n)`, for `n` of at most 4300 digits, lists exactly the performances of play `n` |
| `Filters.PerformanceFilterUnfiltered` | theatre/views.py:228-241 | With no parameters every performance is listed, as a permutation of the input |
| `Filters.ReservationsOf` | theatre/views.py:260-261 | A user's reservation list holds exactly that user's reservations, newest first |
| `Filters.NewReservationListedForOwner` | theatre/views.py:260-270 | After a reservation is created, its requester's list holds it and every other user's list holds what it held before |
| `Actions.ActionsOf` | theatre/views.py:93-248 | Every view set routes `list` and `create`; all but the genre and reservation view sets route `retrieve`; the artist and performance view sets route `upload_image`; only the performance view set routes `destroy` |
| `Actions.SerializerForAsWritten` | theatre/views.py:119-129 | As written (here and at lines 186-193, 219-226 and 263-267), each view set picks a serializer of its own model, except the bare image serializer, picked exactly when the action is the URL segment `upload-image` on the artist or performance view set |
| `Actions.AsWrittenNeverPicksImage` | theatre/views.py:119-129 | As written, no routed action receives the image serializer; the upload action gets the artist (or performance) serializer |
| `Actions.SerializerMatchesView` | theatre/views.py:219-226 | Corrected, every routed action gets a serializer for the view set's own model, and the image serializer is picked exactly for `upload_image` |
| `Actions.SerializerForAgreesElsewhere` | theatre/views.py:119-129 | For every action other than the upload one, the corrected choice equals the choice as written |
| `Actions.ListAndDetailShapes` | theatre/views.py:186-193 | Each view set with a list serializer uses it exactly for `list`; each with a detail serializer uses it exactly for `retrieve` |
| `Permissions.IsAdminUserOrReadOnly` | theatre/permissions.py:8-16 | A request is allowed exactly when its method is safe or it comes from a staff account; a safe method is always allowed |
| `Permissions.IsAuthenticated` | theatre/views.py:254 | A request passes exactly when it carries an account, staff or not |
| `Permissions.CatalogueAccess` | theatre/permissions.py:8-16 | On the catalogue view sets a request is allowed exactly when its method is GET, HEAD or OPTIONS, or it comes from a staff account |
| `Permissions.AnonymousAccess` | theatre/permissions.py:13-16 | A missing or anonymous user may use only safe methods, and only on the catalogue |
| `Permissions.StaffAccess` | theatre/permissions.py:15 | A staff account is allowed every method on every view set |
| `Permissions.AdminOrReadOnlyIgnoresIdentity` | theatre/permissions.py:15 | The permission depends on the account only through its staff flag |
| `Permissions.ReservationAccess` | theatre/views.py:254 | Reservations are allowed exactly to requests that carry an account, whatever the method or the staff flag |
| `Lifecycle.ApplyWf` | theatre/models.py:71-78 | Every modelled write keeps the database well formed |
| `Lifecycle.RunWf` | theatre/models.py:71-78 | Every sequence of modelled writes keeps the database well formed |
| `Lifecycle.NoSeatSoldTwice` | theatre/models.py:77-78 | From an empty database, no sequence of modelled writes sells a seat of a performance twice, and every ticket's performance and reservation exist |
| `Lifecycle.ApplyKeepsReservations` | theatre/models.py:59 | No modelled write rewrites a reservation: the same id before and after means the same record, owner and `created_at` included |
| `Lifecycle.CancelFreesSeats` | theatre/models.py:75 | After a reservation is deleted, no remaining ticket holds the seat of any of its tickets |
| `Lifecycle.CancelThenRebook` | theatre/models.py:75 | After a reservation is deleted, any of its seats that validates can be booked again |

## Left out

- Concurrency. Each request is one atomic step on one database value. The
  guarantee that one of two simultaneous bookings wins comes from the
  database's unique index and transaction isolation, and is not modelled.
- The body of `Ticket.validate_tickets`: it is not defined in
  `theatre/models.py`, so the seat rule is the parameter `seatOk`.
- The `ReservationSerializer.create` as written is modelled only up to its
  first failing `pop` (see Findings). `Serializers.CreateReservation` models
  the evidently intended behaviour. As written, the ticket list is declared
  read-only, so its entries would not even be validated.
- `Ticket.__str__` refers to a `movie_session` attribute that does not exist.
  It and the other `__str__` methods except `Artist.__str__` are not modelled.
- Genres and artists (`theatre/models.py:6-17`): `Models.Db` has no genre
  table and no artist table. The unique genre name is not modelled, and
  neither is creating a genre or an artist. Plays carry genre and artist ids.
  The model does not check that those ids exist. Deleting a genre or an
  artist, which would drop its play links, is not modelled.
  `Filters.ArtistSearch` takes the artists as a separate sequence.
- Field-name drift. The model uses one name where the source has two:
  - `seat_in_row` in the model versus `seats_in_row` in the annotation and the
    hall serializer;
  - `genre`/`artist` on `Play` versus `genres`/`artists` in the filters;
  - the reverse name `tickets`, which `Ticket.performance` does not declare.
  The fields the serializers name but the models lack (`image`, `about`,
  `full_name`, `acts`) are not modelled.
- The `theatre_hall_capacity` field of the performance list: no query
  annotates it.
- Pagination (`PaginationMixin`), the image upload handler's file I/O, the
  user serializer, settings, URL registration, the admin and the migrations.
- Dates: the `date` parameter is given as an already-parsed day number, and
  `strptime` is not modelled. A malformed `date` raises `ValueError` in
  `strptime` (theatre/views.py:238), and `Filters.PerformanceFilter` does not
  model that failure. The day of a show time is taken in UTC, and
  time-zone conversion is not modelled.
- Writes outside `Lifecycle.Op`:
  - the `update` and `partial_update` routes of the performance view set,
    which are routed (`Actions.ActionsOf`) but whose writes are not modelled
    (its destroy route is `Models.DeletePerformance`);
  - every edit made through the admin site (theatre/admin.py:13-19) other
    than the creations and deletions listed above, for example adding a
    ticket directly or changing a hall's rows.
  `Lifecycle.RunWf` and `Lifecycle.NoSeatSoldTwice` therefore cover only
  runs of the modelled writes.
- `Models.AddHall` puts no bound on `rows`, `seat_in_row` or the name. On
  PostgreSQL (theatre_service/settings/docker.py:7) an `IntegerField` is a
  32-bit column that Django validates against -2147483648..2147483647, and a
  `CharField(max_length=255)` is validated for length, so the source refuses
  a dimension outside that range and a name over 255 characters
  (theatre/models.py:34-36). The model uses unbounded integers and strings.
- `Models.AddPlay` accepts a title over 255 characters, which the
  `CharField(max_length=255)` refuses (theatre/models.py:21).
- `Serializers.ValidateTicket` accepts a row or seat outside the 32-bit range
  whenever the seat rule does, where the serializer's generated
  `min_value`/`max_value` refuse it (theatre/serializers.py:177-181).
- `Availability.TicketsAvailableAsWritten` adds `rows` and `seats_in_row`
  without bound, where the database's 32-bit sum raises "integer out of
  range" above 2147483647 (theatre/views.py:205-209).
- `Serializers.ValidateAll` inherits the 32-bit gap of `ValidateTicket`, and
  does not model the `UniqueTogetherValidator` that DRF generates for
  `TicketSerializer`, whose fields include all of `performance`, `row` and
  `seat` (theatre/models.py:78, theatre/serializers.py:181). In the source, a
  ticket for an already sold seat is refused during validation, as a
  validation error, before `validate()` asks the seat rule; only seats
  repeated within one request reach the insert. The model lets a sold seat
  pass validation and reports it from the insert as `SeatAlreadyTaken`. For
  the intended `Serializers.CreateReservation`, whether a reservation is
  created and the database afterwards agree with the source; the error
  reported for a sold seat does not.
- HTTP responses: a `Failure` stands for the exception. The status code it
  becomes (400 for validation errors, 500 for `ValueError` and `KeyError`) is
  not modelled.
- Artist search order: the artist model declares no ordering, and the result
  is modelled in table order.
- `Seqs.NextId`: a fresh id is one more than the largest id in the table, so
  the model can reuse the id of a deleted newest row, which a database
  sequence never does. `Lifecycle.ApplyKeepsReservations` is therefore stated
  for one request, not across a run.
- `Text.StrLe`: titles are ordered by code point, not by the database
  collation.
- `Text.ParseInt` and `Text.IContains` handle ASCII only. Python's `int()`
  also accepts other Unicode digits and whitespace, and the database
  upper-cases beyond ASCII. The 4300-digit limit is the default of
  `sys.int_info.default_max_str_digits`; changing it at run time is not
  modelled.
- `Text.ShowInt`: `str(n)` raises `ValueError` for an integer of more than
  4300 digits, and the model does not return that error. The lemmas that
  write integers out (`Text.ParseShowInt`, `Filters.ParamsToIntsRoundTrip`,
  `Filters.PerformanceFilterByPlayId`) require `Text.WithinStrDigits`
  instead.

## Findings

| source | as written | input that shows it | evidently intended | confidence | as-written member | corrected member |
|---|---|---|---|---|---|---|
| theatre/views.py:205-209 | `tickets_available` is `rows + seats_in_row - count(tickets)` | a hall of 10 rows with 15 seats each and no ticket sold: 25 reported, 150 seats free | capacity (`rows * seat_in_row`, theatre/models.py:38-40) minus tickets sold | high, not executed | `Availability.AsWrittenUndercounts` | `Availability.SeatsRemainingCountsFree` |
| theatre/views.py:126 | `get_serializer_class` compares `self.action` with the URL segment `"upload-image"` (also at line 224) | `POST /artists/1/upload-image/`: the action is `upload_image`, so the full artist serializer is used | compare with `"upload_image"` and use an image serializer for the view's model | high, not executed | `Actions.AsWrittenNeverPicksImage` | `Actions.SerializerMatchesView` |
| theatre/serializers.py:224-235 | the ticket list is read-only and `create` pops `tickets` and `reservation` from `validated_data` | any `POST /reservations/`: `validated_data` holds only `user`, so `pop("tickets")` raises `KeyError` | create the requester's reservation and bulk-create its validated tickets linked to it, atomically | medium, not executed | `Serializers.CreateAsWrittenAlwaysFails` | `Serializers.CreateReservationIff` |

=== FILE: actions.dfy ===
/** The routes of each view set and the serializer it picks per action
    (`get_serializer_class`). */
module Actions {
  import opened Results

  datatype ViewSet = GenreViews | ArtistViews | PlayViews | PerformanceViews | ReservationViews

  /** The model a view set or a serializer is about. */
  datatype Resource = GenreResource | ArtistResource | PlayResource | PerformanceResource | ReservationResource

  /** The serializers the views hand out. `Image(m)` is an image upload
      serializer for model `m`; `Image(None)` is `ImageSerializer` itself,
      which names no model. */
  datatype Serializer =
    | GenreSerializer
    | ArtistSerializer | ArtistListSerializer | ArtistDetailSerializer
    | PlaySerializer | PlayListSerializer | PlayDetailSerializer
    | PerformanceSerializer | PerformanceListSerializer | PerformanceDetailSerializer
    | ReservationSerializer | ReservationListSerializer
    | Image(model: Option<Resource>)

  function ResourceOf(v: ViewSet): Resource {
    match v
    case GenreViews => GenreResource
    case ArtistViews => ArtistResource
    case PlayViews => PlayResource
    case PerformanceViews => PerformanceResource
    case ReservationViews => ReservationResource
  }

  function ModelOf(s: Serializer): Option<Resource> {
    match s
    case GenreSerializer => Some(GenreResource)
    case ArtistSerializer | ArtistListSerializer | ArtistDetailSerializer => Some(ArtistResource)
    case PlaySerializer | PlayListSerializer | PlayDetailSerializer => Some(PlayResource)
    case PerformanceSerializer | PerformanceListSerializer | PerformanceDetailSerializer => Some(PerformanceResource)
    case ReservationSerializer | ReservationListSerializer => Some(ReservationResource)
    case Image(m) => m
  }

  /** The name DRF gives the extra upload route's action: the handler's
      name, `upload_image`. Its URL segment is `upload-image`. */
  const UploadImage: string := "upload_image"
  const UploadImageUrl: string := "upload-image"

  /** The actions each view set's mixins route to. */
  function ActionsOf(v: ViewSet): (actions: set<string>)
    ensures "list" in actions && "create" in actions
    ensures "retrieve" in actions <==> v != GenreViews && v != ReservationViews
    ensures UploadImage in actions <==> v == ArtistViews || v == PerformanceViews
    ensures "destroy" in actions <==> v == PerformanceViews
  {
    match v
    case GenreViews => {"list", "create"}
    case ArtistViews => {"list", "create", "retrieve", UploadImage}
    case PlayViews => {"list", "create", "retrieve"}
    case PerformanceViews =>
      {"list", "create", "retrieve", "update", "partial_update", "destroy", UploadImage}
    case ReservationViews => {"list", "create"}
  }

  /** `get_serializer_class` as written: the artist and performance view
      sets compare the action with the URL segment `upload-image`. */
  function SerializerForAsWritten(v: ViewSet, action: string): (s: Serializer)
    ensures ModelOf(s) == Some(ResourceOf(v)) || s == Image(None)
    ensures s == Image(None) <==>
      (v == ArtistViews || v == PerformanceViews) && action == UploadImageUrl
  {
    match v
    case GenreViews => GenreSerializer
    case ArtistViews =>
      if action == "list" then ArtistListSerializer
      else if action == "retrieve" then ArtistDetailSerializer
      else if action == UploadImageUrl then Image(None)
      else ArtistSerializer
    case PlayViews =>
      if action == "list" then PlayListSerializer
      else if action == "retrieve" then PlayDetailSerializer
      else PlaySerializer
    case PerformanceViews =>
      if action == "list" then PerformanceListSerializer
      else if action == "retrieve" then PerformanceDetailSerializer
      else if action == UploadImageUrl then Image(None)
      else PerformanceSerializer
    case ReservationViews =>
      if action == "list" then ReservationListSerializer else ReservationSerializer
  }

  /** `get_serializer_class` with the upload action recognised by its own
      name and given an image serializer for the view's model (as
      `get_image_serializer` builds one). */
  function SerializerFor(v: ViewSet, action: string): Serializer {
    match v
    case GenreViews => GenreSerializer
    case ArtistViews =>
      if action == "list" then ArtistListSerializer
      else if action == "retrieve" then ArtistDetailSerializer
      else if action == UploadImage then Image(Some(ArtistResource))
      else ArtistSerializer
    case PlayViews =>
      if action == "list" then PlayListSerializer
      else if action == "retrieve" then PlayDetailSerializer
      else PlaySerializer
    case PerformanceViews =>
      if action == "list" then PerformanceListSerializer
      else if action == "retrieve" then PerformanceDetailSerializer
      else if action == UploadImage then Image(Some(PerformanceResource))
      else PerformanceSerializer
    case ReservationViews =>
      if action == "list" then ReservationListSerializer else ReservationSerializer
  }

  /** As written, no routed action ever receives the image serializer: the
      upload route of the artist view set gets the full artist serializer. */
  lemma AsWrittenNeverPicksImage(v: ViewSet, action: string)
    requires action in ActionsOf(v)
    ensures !SerializerForAsWritten(v, action).Image?
    ensures SerializerForAsWritten(ArtistViews, UploadImage) == ArtistSerializer
    ensures SerializerForAsWritten(PerformanceViews, UploadImage) == PerformanceSerializer
  {
    assert UploadImage != UploadImageUrl by {
      assert UploadImage[6] != UploadImageUrl[6];
    }
  }

  /** With the correction, every routed action receives a serializer for the
      view set's own model, and the image serializer is picked exactly for
      the upload action. */
  lemma SerializerMatchesView(v: ViewSet, action: string)
    requires action in ActionsOf(v)
    ensures ModelOf(SerializerFor(v, action)) == Some(ResourceOf(v))
    ensures SerializerFor(v, action).Image? <==> action == UploadImage
  {
  }

  /** Apart from the upload action, the correction picks what the code as
      written picks. */
  lemma SerializerForAgreesElsewhere(v: ViewSet, action: string)
    requires action != UploadImage && action != UploadImageUrl
    ensures SerializerFor(v, action) == SerializerForAsWritten(v, action)
  {
  }

  predicate IsListSerializer(s: Serializer) {
    s.ArtistListSerializer? || s.PlayListSerializer? || s.PerformanceListSerializer? || s.ReservationListSerializer?
  }

  predicate IsDetailSerializer(s: Serializer) {
    s.ArtistDetailSerializer? || s.PlayDetailSerializer? || s.PerformanceDetailSerializer?
  }

  /** Every view set with a list serializer uses it exactly for `list`, and
      every view set with a detail serializer uses it exactly for `retrieve`. */
  lemma ListAndDetailShapes(v: ViewSet, action: string)
    ensures v != GenreViews ==> (IsListSerializer(SerializerFor(v, action)) <==> action == "list")
    ensures v != GenreViews && v != ReservationViews ==>
      (IsDetailSerializer(SerializerFor(v, action)) <==> action == "retrieve")
  {
  }
}

=== FILE: availability.dfy ===
/** The `tickets_available` annotation of the performance list: the value
    the query computes, and the number of free seats it stands for. */
module Availability {
  import opened Results
  import opened Seqs
  import opened Models
  import opened Serializers

  /** Tickets sold for performance `id` (`Count("tickets")`). */
  function Sold(db: Db, id: nat): nat {
    |TicketsOf(db.tickets, id)|
  }

  /** The annotation as the query writes it: the hall's row count plus its
      seats per row, minus the tickets sold. */
  function TicketsAvailableAsWritten(h: Hall, sold: nat): (r: int)
    ensures r == SeatsRemaining(h, sold) <==> h.rows + h.seatsInRow == Capacity(h)
  {
    h.rows + h.seatsInRow - sold
  }

  /** Free seats: the hall's capacity minus the tickets sold. */
  function SeatsRemaining(h: Hall, sold: nat): int {
    Capacity(h) - sold
  }

  /** The annotation for performance `p`, read through its own hall
      (`theatre_hall__rows`, `theatre_hall__seats_in_row`); `None` when the
      hall key does not resolve. */
  function TicketsAvailable(db: Db, p: Performance): (r: Option<int>)
    ensures r.None? <==> p.hall !in HallIds(db)
    ensures r.Some? ==> exists h :: (h in db.halls && h.id == p.hall
      && r.value == h.rows + h.seatsInRow - |TicketsOf(db.tickets, p.id)|)
  {
    match FindHall(db, p.hall)
    case None => None
    case Some(h) => Some(TicketsAvailableAsWritten(h, Sold(db, p.id)))
  }

  /** The free seats of performance `p`: its hall's capacity minus the
      tickets sold; `None` when the hall key does not resolve. */
  function FreeSeats(db: Db, p: Performance): (r: Option<int>)
    ensures r.None? <==> p.hall !in HallIds(db)
    ensures r.Some? ==> exists h :: (h in db.halls && h.id == p.hall
      && r.value == Capacity(h) - |TicketsOf(db.tickets, p.id)|)
  {
    match FindHall(db, p.hall)
    case None => None
    case Some(h) => Some(SeatsRemaining(h, Sold(db, p.id)))
  }

  /** The positions of performance `id` that are sold. */
  ghost function TakenSet(db: Db, id: nat): set<Place> {
    KeySet(TicketsOf(db.tickets, id), PlaceOf)
  }

  /** The free positions of a hall for performance `id`. */
  ghost function FreeSet(db: Db, h: Hall, id: nat): set<Place> {
    Grid(h.rows, h.seatsInRow) - TakenSet(db, id)
  }

  /** Each sold ticket of a performance occupies its own position. */
  lemma TakenSetSize(db: Db, id: nat)
    requires SeatsUnique(db.tickets)
    ensures |TakenSet(db, id)| == Sold(db, id)
  {
    PlaceIsKey(db.tickets, id);
    DistinctIffCard(TicketsOf(db.tickets, id), PlaceOf);
  }

  /** When every ticket of performance `id` lies inside the hall, the
      capacity minus the tickets sold is exactly the number of free seats. */
  lemma SeatsRemainingCountsFree(db: Db, h: Hall, id: nat)
    requires SeatsUnique(db.tickets)
    requires h.rows >= 0 && h.seatsInRow >= 0
    requires forall t :: t in db.tickets && t.performance == id ==> PlaceOf(t) in Grid(h.rows, h.seatsInRow)
    ensures SeatsRemaining(h, Sold(db, id)) == |FreeSet(db, h, id)|
  {
    var grid := Grid(h.rows, h.seatsInRow);
    var taken := TakenSet(db, id);
    TakenSetSize(db, id);
    CapacityCountsSeats(h);
    assert taken <= grid;
    assert grid == (grid - taken) + taken;
    assert (grid - taken) !! taken;
  }

  /** Under the same conditions, the annotation as written equals the number
      of free seats exactly when the hall's rows plus seats per row equal its
      capacity. */
  lemma AsWrittenCountsFreeIff(db: Db, h: Hall, id: nat)
    requires SeatsUnique(db.tickets)
    requires h.rows >= 0 && h.seatsInRow >= 0
    requires forall t :: t in db.tickets && t.performance == id ==> PlaceOf(t) in Grid(h.rows, h.seatsInRow)
    ensures TicketsAvailableAsWritten(h, Sold(db, id)) == |FreeSet(db, h, id)| <==>
      h.rows + h.seatsInRow == Capacity(h)
  {
    SeatsRemainingCountsFree(db, h, id);
  }

  /** A 10-row hall with 15 seats per row and nothing sold: the annotation
      reports 25 tickets available where 150 seats are free. */
  lemma AsWrittenUndercounts()
    ensures var h := Hall(1, "Main", 10, 15);
      && TicketsAvailableAsWritten(h, Sold(Empty, 1)) == 25
      && SeatsRemaining(h, Sold(Empty, 1)) == 150
      && |FreeSet(Empty, h, 1)| == 150
  {
    var h := Hall(1, "Main", 10, 15);
    SeatsRemainingCountsFree(Empty, h, 1);
  }

  // ---------------------------------------------------------------------
  // How a reservation changes the count
  // ---------------------------------------------------------------------

  function ForRequestPerformance(id: nat): TicketRequest -> bool {
    (q: TicketRequest) => q.performance == id
  }

  /** The entries of a reservation that are for performance `id`. */
  function RequestsFor(qs: seq<TicketRequest>, id: nat): nat {
    |Filter(qs, ForRequestPerformance(id))|
  }

  /** A reservation's tickets for performance `pid` are as many as its
      entries for `pid`. */
  lemma {:induction false} TicketsForCount(qs: seq<TicketRequest>, rid: nat, pid: nat)
    ensures |TicketsOf(TicketsFor(qs, rid), pid)| == RequestsFor(qs, pid)
    decreases |qs|
  {
    if |qs| > 0 {
      var q := qs[0];
      var t := Ticket(q.row, q.seat, q.performance, rid);
      assert TicketsFor(qs, rid) == [t] + TicketsFor(qs[1..], rid);
      FilterAppend([t], TicketsFor(qs[1..], rid), ForPerformance(pid));
      TicketsForCount(qs[1..], rid, pid);
    }
  }

  /** A successful reservation raises the tickets sold for each performance
      by its number of entries for that performance, so both the annotation
      and the free seat count of the performance drop by that number. */
  lemma ReservationLowersAvailability(db: Db, seatOk: SeatRule, user: nat, now: Time,
                                      qs: seq<TicketRequest>, p: Performance)
    requires CreateReservation(db, seatOk, user, now, qs).1.Success?
    ensures var db' := CreateReservation(db, seatOk, user, now, qs).0;
      && Sold(db', p.id) == Sold(db, p.id) + RequestsFor(qs, p.id)
      && TicketsAvailable(db', p).Some? == TicketsAvailable(db, p).Some?
      && (TicketsAvailable(db, p).Some? ==>
            TicketsAvailable(db', p).value == TicketsAvailable(db, p).value - RequestsFor(qs, p.id))
      && (FreeSeats(db, p).Some? ==>
            FreeSeats(db', p).value == FreeSeats(db, p).value - RequestsFor(qs, p.id))
  {
    var out := CreateReservation(db, seatOk, user, now, qs);
    var ts := TicketsFor(qs, out.1.value.id);
    FilterAppend(db.tickets, ts, ForPerformance(p.id));
    TicketsForCount(qs, out.1.value.id, p.id);
    assert out.0.halls == db.halls;
    assert FindHall(out.0, p.hall) == FindHall(db, p.hall);
  }

  /** A reservation with no entry for a performance leaves its count alone. */
  lemma ReservationLeavesOthers(db: Db, seatOk: SeatRule, user: nat, now: Time,
                                qs: seq<TicketRequest>, p: Performance)
    requires forall i :: 0 <= i < |qs| ==> qs[i].performance != p.id
    ensures TicketsAvailable(CreateReservation(db, seatOk, user, now, qs).0, p) == TicketsAvailable(db, p)
  {
    var out := CreateReservation(db, seatOk, user, now, qs);
    if out.1.Success? {
      ReservationLowersAvailability(db, seatOk, user, now, qs, p);
      FilterNone(qs, ForRequestPerformance(p.id));
      assert RequestsFor(qs, p.id) == 0;
      assert Sold(out.0, p.id) == Sold(db, p.id);
      assert FindHall(out.0, p.hall) == FindHall(db, p.hall);
    }
  }

  /** Inserting one ticket lowers the annotation of its own performance by
      exactly one and leaves every other performance's value unchanged. */
  lemma OneTicketLowersByOne(db: Db, t: Ticket, p: Performance)
    requires InsertBatch(db, [t]).Success?
    ensures var db' := InsertBatch(db, [t]).value;
      && TicketsAvailable(db', p).Some? == TicketsAvailable(db, p).Some?
      && (TicketsAvailable(db, p).Some? ==>
            TicketsAvailable(db', p).value ==
              if p.id == t.performance then TicketsAvailable(db, p).value - 1
              else TicketsAvailable(db, p).value)
  {
    var db' := InsertBatch(db, [t]).value;
    FilterAppend(db.tickets, [t], ForPerformance(p.id));
    assert FindHall(db', p.hall) == FindHall(db, p.hall);
  }
}

=== FILE: filters.dfy ===
/** The query-parameter filtering of the list endpoints: the play filters
    (`title`, `genres`, `artists`), the artist search, the performance
    filters (`play`, `date`) and the per-user reservation listing. */
module Filters {
  import opened Results
  import opened Seqs
  import opened Models
  import Text
  import Serializers

  /** A query parameter takes effect only when present and non-empty, as a
      Python `str` is true only when non-empty. */
  predicate Given(param: Option<string>) {
    param.Some? && |param.value| > 0
  }

  // ---------------------------------------------------------------------
  // `_params_to_ints`
  // ---------------------------------------------------------------------

  /** `parse` applied to each piece in turn; the first piece it rejects
      raises. */
  function ParseAll(parts: seq<string>, parse: string -> Option<int>): (r: Result<seq<int>, Error>)
    ensures r.Success? <==> forall i :: 0 <= i < |parts| ==> parse(parts[i]).Some?
    ensures r.Success? ==>
      |r.value| == |parts| && forall i :: 0 <= i < |parts| ==> parse(parts[i]) == Some(r.value[i])
    ensures r.Failure? ==>
      exists i :: 0 <= i < |parts| && parse(parts[i]).None? && r.error == InvalidInteger(parts[i])
    decreases |parts|
  {
    if |parts| == 0 then Success([])
    else
      match parse(parts[0])
      case None => Failure(InvalidInteger(parts[0]))
      case Some(n) =>
        match ParseAll(parts[1..], parse)
        case Failure(e) =>
          assert exists i :: 0 <= i < |parts| && parse(parts[i]).None? && e == InvalidInteger(parts[i]) by {
            var i :| 0 <= i < |parts[1..]| && parse(parts[1..][i]).None? && e == InvalidInteger(parts[1..][i]);
            assert parts[i + 1] == parts[1..][i];
          }
          Failure(e)
        case Success(ns) =>
          assert forall i :: 0 < i < |parts| ==> parts[i] == parts[1..][i - 1];
          Success([n] + ns)
  }

  /** `_params_to_ints`: a comma-separated list of integers, each read by
      `int()`. */
  function ParamsToInts(query: string): (r: Result<seq<int>, Error>)
    ensures r.Success? ==> |r.value| == Text.CountChar(query, ',') + 1
    ensures r.Success? ==> forall i :: 0 <= i < |r.value| ==>
      Text.ParseInt(Text.Split(query, ',')[i]) == Some(r.value[i])
    ensures r.Failure? ==> exists piece :: piece in Text.Split(query, ',') && Text.ParseInt(piece).None? && r.error == InvalidInteger(piece)
  {
    ParseAll(Text.Split(query, ','), Text.ParseInt)
  }

  /** `str` of each integer. */
  function ShowInts(ns: seq<int>): (parts: seq<string>)
    ensures |parts| == |ns|
    ensures forall i :: 0 <= i < |ns| ==> parts[i] == Text.ShowInt(ns[i])
  {
    seq(|ns|, i requires 0 <= i < |ns| => Text.ShowInt(ns[i]))
  }

  /** When every piece parses, `ParseAll` yields exactly the parsed values. */
  lemma ParseAllValues(parts: seq<string>, parse: string -> Option<int>, ns: seq<int>)
    requires |parts| == |ns|
    requires forall i :: 0 <= i < |parts| ==> parse(parts[i]) == Some(ns[i])
    ensures ParseAll(parts, parse) == Success(ns)
  {
    var r := ParseAll(parts, parse);
    assert r.Success?;
    assert |r.value| == |ns|;
    forall i | 0 <= i < |ns| ensures r.value[i] == ns[i] {
      assert parse(parts[i]) == Some(r.value[i]);
    }
    assert r.value == ns;
  }

  /** Each written-out id is a comma-free piece that `int()` reads back. */
  lemma ShowIntsPieces(ns: seq<int>)
    requires forall i :: 0 <= i < |ns| ==> Text.WithinStrDigits(ns[i])
    ensures forall i :: 0 <= i < |ns| ==>
      ',' !in ShowInts(ns)[i] && Text.ParseInt(ShowInts(ns)[i]) == Some(ns[i])
  {
    forall i | 0 <= i < |ns| ensures ',' !in ShowInts(ns)[i] && Text.ParseInt(ShowInts(ns)[i]) == Some(ns[i]) {
      Text.ShowIntChars(ns[i]);
      Text.ParseShowInt(ns[i]);
    }
  }

  /** A non-empty list of ids, each one `str()` can write, written out with
      commas parses back to itself. */
  lemma ParamsToIntsRoundTrip(ns: seq<int>)
    requires |ns| > 0
    requires forall i :: 0 <= i < |ns| ==> Text.WithinStrDigits(ns[i])
    ensures ParamsToInts(Text.Join(ShowInts(ns), ',')) == Success(ns)
  {
    var parts := ShowInts(ns);
    ShowIntsPieces(ns);
    Text.SplitJoin(parts, ',');
    ParseAllValues(parts, Text.ParseInt, ns);
  }

  /** An empty piece, as in `"1,,2"`, makes the whole list fail. */
  lemma ParamsToIntsEmptyPiece(a: string, b: string)
    requires ',' !in a && ',' !in b
    ensures ParamsToInts(a + ",," + b).Failure?
  {
    var parts := [a, "", b];
    assert Text.Join(parts[2..], ',') == b;
    assert Text.Join(parts[1..], ',') == "," + b;
    assert Text.Join(parts, ',') == a + ",," + b;
    Text.SplitJoin(parts, ',');
    Text.ParseIntEmpty();
    assert Text.ParseInt(parts[1]).None?;
  }

  // ---------------------------------------------------------------------
  // The play list
  // ---------------------------------------------------------------------

  function GenresOf(p: Play): set<nat> { p.genres }
  function ArtistsOf(p: Play): set<nat> { p.artists }

  /** The links of a play whose ids the `__id__in` list names. */
  function Hits(links: set<nat>, ids: seq<int>): set<nat> {
    set g | g in links && g in ids
  }

  function Repeat<T>(x: T, n: nat): (r: seq<T>)
    ensures |r| == n
    ensures forall i :: 0 <= i < n ==> r[i] == x
  {
    seq(n, _ => x)
  }

  /** The rows of a join between plays and one of their link tables,
      restricted to the listed ids: a play appears once per matching link. */
  function JoinOn(ps: seq<Play>, links: Play -> set<nat>, ids: seq<int>): (r: seq<Play>)
    ensures forall p :: p in r <==> p in ps && exists g :: g in links(p) && g in ids
    decreases |ps|
  {
    if |ps| == 0 then []
    else
      var p := ps[0];
      var n := |Hits(links(p), ids)|;
      assert (exists g :: g in links(p) && g in ids) <==> n > 0 by {
        if exists g :: g in links(p) && g in ids {
          var g :| g in links(p) && g in ids;
          assert g in Hits(links(p), ids);
        }
        if n > 0 {
          var g :| g in Hits(links(p), ids);
        }
      }
      assert n > 0 ==> Repeat(p, n)[0] == p;
      assert forall x :: x in ps <==> x == p || x in ps[1..] by {
        assert ps == [p] + ps[1..];
      }
      Repeat(p, n) + JoinOn(ps[1..], links, ids)
  }

  /** One `__id__in` filter of the play list, applied when its parameter is given. */
  function Narrow(rows: seq<Play>, param: Option<string>, links: Play -> set<nat>): (r: Result<seq<Play>, Error>)
    ensures r.Success? <==> !Given(param) || ParamsToInts(param.value).Success?
    ensures r.Failure? ==> r == Failure(ParamsToInts(param.value).error)
    ensures r.Success? ==> forall p :: p in r.value <==>
      p in rows && (Given(param) ==> exists g :: g in links(p) && g in ParamsToInts(param.value).value)
  {
    if !Given(param) then Success(rows)
    else
      match ParamsToInts(param.value)
      case Failure(e) => Failure(e)
      case Success(ids) => Success(JoinOn(rows, links, ids))
  }

  function TitleMatches(title: string): Play -> bool {
    (p: Play) => Text.IContains(p.title, title)
  }

  /** The rows the play query selects before `distinct()`: the title
      filter, then the genre and artist id filters. */
  function PlayRows(plays: seq<Play>, title: Option<string>, genres: Option<string>, artists: Option<string>)
    : (r: Result<seq<Play>, Error>)
    ensures r.Success? <==>
      && (Given(genres) ==> ParamsToInts(genres.value).Success?)
      && (Given(artists) ==> ParamsToInts(artists.value).Success?)
    ensures r.Failure? && Given(genres) && ParamsToInts(genres.value).Failure? ==>
      r.error == ParamsToInts(genres.value).error
    ensures r.Failure? && !(Given(genres) && ParamsToInts(genres.value).Failure?) ==>
      Given(artists) && ParamsToInts(artists.value).Failure? && r.error == ParamsToInts(artists.value).error
    ensures r.Success? ==> forall p :: p in r.value <==>
      && p in plays
      && (Given(title) ==> Text.IContains(p.title, title.value))
      && (Given(genres) ==> exists g :: g in p.genres && g in ParamsToInts(genres.value).value)
      && (Given(artists) ==> exists a :: a in p.artists && a in ParamsToInts(artists.value).value)
  {
    var byTitle := if Given(title) then Filter(plays, TitleMatches(title.value)) else plays;
    assert forall p :: p in byTitle <==> p in plays && (Given(title) ==> Text.IContains(p.title, title.value));
    match Narrow(byTitle, genres, GenresOf)
    case Failure(e) => Failure(e)
    case Success(byGenre) =>
      Narrow(byGenre, artists, ArtistsOf)
  }

  /** `PlayViewSet.get_queryset` evaluated under the model's ordering: the
      selected rows after `distinct()`, sorted by title. A malformed id list
      raises. */
  function PlayFilter(plays: seq<Play>, title: Option<string>, genres: Option<string>, artists: Option<string>)
    : (r: Result<seq<Play>, Error>)
    ensures r.Success? <==>
      && (Given(genres) ==> ParamsToInts(genres.value).Success?)
      && (Given(artists) ==> ParamsToInts(artists.value).Success?)
    ensures r.Failure? && Given(genres) && ParamsToInts(genres.value).Failure? ==>
      r.error == ParamsToInts(genres.value).error
    ensures r.Failure? && !(Given(genres) && ParamsToInts(genres.value).Failure?) ==>
      Given(artists) && ParamsToInts(artists.value).Failure? && r.error == ParamsToInts(artists.value).error
    ensures r.Success? ==> NoDuplicates(r.value)
    ensures r.Success? ==> forall i, j :: 0 <= i < j < |r.value| ==> Text.StrLe(r.value[i].title, r.value[j].title)
  {
    match PlayRows(plays, title, genres, artists)
    case Failure(e) => Failure(e)
    case Success(rows) =>
      var d := Distinct(rows);
      var r := ListPlays(d);
      PermutationKeepsNoDuplicates(d, r);
      Success(r)
  }

  /** A play is listed exactly when it passes every given filter. */
  lemma PlayFilterMembers(plays: seq<Play>, title: Option<string>, genres: Option<string>, artists: Option<string>)
    requires PlayFilter(plays, title, genres, artists).Success?
    ensures forall p :: p in PlayFilter(plays, title, genres, artists).value <==>
      && p in plays
      && (Given(title) ==> Text.IContains(p.title, title.value))
      && (Given(genres) ==> exists g :: g in p.genres && g in ParamsToInts(genres.value).value)
      && (Given(artists) ==> exists a :: a in p.artists && a in ParamsToInts(artists.value).value)
  {
    var rows := PlayRows(plays, title, genres, artists).value;
    var listed := PlayFilter(plays, title, genres, artists).value;
    assert forall p :: p in listed <==> p in rows by {
      var d := Distinct(rows);
      assert listed == ListPlays(d);
      PermutationSameElements(d, ListPlays(d));
    }
  }

  /** With no parameters, a listing without repeated plays comes back whole,
      ordered by title. */
  lemma PlayFilterUnfiltered(plays: seq<Play>)
    requires NoDuplicates(plays)
    ensures PlayFilter(plays, None, None, None).Success?
    ensures multiset(PlayFilter(plays, None, None, None).value) == multiset(plays)
  {
    DistinctOfNoDuplicates(plays);
  }

  /** A play linked to several listed genres is one row per genre in the
      join, and `distinct()` lists it once. */
  lemma JoinRepeatsDistinctCollapses(p: Play)
    requires p.genres == {1, 2}
    ensures JoinOn([p], GenresOf, [1, 2]) == [p, p]
    ensures Distinct(JoinOn([p], GenresOf, [1, 2])) == [p]
  {
    assert Hits(p.genres, [1, 2]) == {1, 2} by {
      assert 1 in [1, 2] && 2 in [1, 2];
    }
    assert JoinOn([p], GenresOf, [1, 2]) == Repeat(p, 2) + JoinOn([], GenresOf, [1, 2]);
    assert Filter([p], Differs(p)) == [];
  }

  // ---------------------------------------------------------------------
  // The artist search
  // ---------------------------------------------------------------------

  function NameMatches(search: string): Artist -> bool {
    (a: Artist) => Text.IContains(a.firstName, search) || Text.IContains(a.lastName, search)
  }

  /** `ArtistViewSet.get_queryset`: with a search term, the artists whose
      first or last name contains it, ignoring case, in table order. */
  function ArtistSearch(artists: seq<Artist>, search: Option<string>): (r: seq<Artist>)
    ensures forall a :: a in r <==>
      a in artists && (Given(search) ==> Text.IContains(a.firstName, search.value) || Text.IContains(a.lastName, search.value))
    ensures !Given(search) ==> r == artists
  {
    if Given(search) then Filter(artists, NameMatches(search.value)) else artists
  }

  /** Searching for an artist's first or last name finds that artist. */
  lemma ArtistSearchFindsByName(artists: seq<Artist>, a: Artist)
    requires a in artists
    ensures a in ArtistSearch(artists, Some(a.firstName))
    ensures a in ArtistSearch(artists, Some(a.lastName))
  {
    Text.IContainsSelf(a.firstName);
    Text.IContainsSelf(a.lastName);
  }

  /** The search ignores the case of the term. */
  lemma ArtistSearchIgnoresCase(artists: seq<Artist>, search: string)
    ensures ArtistSearch(artists, Some(Text.Upper(search))) == ArtistSearch(artists, Some(search))
  {
    forall a: Artist ensures NameMatches(Text.Upper(search))(a) == NameMatches(search)(a) {
      Text.IContainsIgnoresCase(a.firstName, search);
      Text.IContainsIgnoresCase(a.lastName, search);
    }
    FilterSameKeep(artists, NameMatches(Text.Upper(search)), NameMatches(search));
  }

  // ---------------------------------------------------------------------
  // The performance list
  // ---------------------------------------------------------------------

  function OfPlay(id: int): Performance -> bool { (p: Performance) => p.play == id }
  function OnDay(day: int): Performance -> bool { (p: Performance) => DateOf(p.showTime) == day }

  /** The `play` filter: `int()` of the parameter, which raises on a
      malformed value. */
  function NarrowByPlay(perfs: seq<Performance>, play: Option<string>): (r: Result<seq<Performance>, Error>)
    ensures r.Success? <==> !Given(play) || Text.ParseInt(play.value).Some?
    ensures r.Failure? ==> r == Failure(InvalidInteger(play.value))
    ensures r.Success? ==> forall p :: p in r.value <==>
      p in perfs && (Given(play) ==> p.play == Text.ParseInt(play.value).value)
  {
    if !Given(play) then Success(perfs)
    else
      match Text.ParseInt(play.value)
      case None => Failure(InvalidInteger(play.value))
      case Some(id) => Success(Filter(perfs, OfPlay(id)))
  }

  /** `PerformanceViewSet.get_queryset` under the model's ordering. `date`
      is the calendar day the `date` parameter names, already parsed; `None`
      stands for an absent or empty parameter. */
  function PerformanceFilter(perfs: seq<Performance>, date: Option<int>, play: Option<string>)
    : (r: Result<seq<Performance>, Error>)
    ensures r.Success? <==> !Given(play) || Text.ParseInt(play.value).Some?
    ensures r.Failure? ==> r.error == InvalidInteger(play.value)
    ensures r.Success? ==> forall i, j :: 0 <= i < j < |r.value| ==> r.value[i].showTime >= r.value[j].showTime
  {
    match NarrowByPlay(perfs, play)
    case Failure(e) => Failure(e)
    case Success(rows) =>
      Success(ListPerformances(if date.Some? then Filter(rows, OnDay(date.value)) else rows))
  }

  /** A performance is listed exactly when it is of the requested play and
      on the requested day, each when requested. */
  lemma PerformanceFilterMembers(perfs: seq<Performance>, date: Option<int>, play: Option<string>)
    requires PerformanceFilter(perfs, date, play).Success?
    ensures forall p :: p in PerformanceFilter(perfs, date, play).value <==>
      && p in perfs
      && (Given(play) ==> p.play == Text.ParseInt(play.value).value)
      && (date.Some? ==> DateOf(p.showTime) == date.value)
  {
    var rows := NarrowByPlay(perfs, play).value;
    var kept := if date.Some? then Filter(rows, OnDay(date.value)) else rows;
    PermutationSameElements(kept, ListPerformances(kept));
  }

  /** Both filters together list exactly the performances each lists alone. */
  lemma PerformanceFilterIntersects(perfs: seq<Performance>, day: int, play: string)
    requires PerformanceFilter(perfs, Some(day), Some(play)).Success?
    ensures forall p :: p in PerformanceFilter(perfs, Some(day), Some(play)).value <==>
      p in PerformanceFilter(perfs, Some(day), None).value && p in PerformanceFilter(perfs, None, Some(play)).value
  {
    PerformanceFilterMembers(perfs, Some(day), Some(play));
    PerformanceFilterMembers(perfs, Some(day), None);
    PerformanceFilterMembers(perfs, None, Some(play));
  }

  /** Asking for the play id `str(n)` lists the performances of play `n`. */
  lemma PerformanceFilterByPlayId(perfs: seq<Performance>, n: int)
    requires Text.WithinStrDigits(n)
    ensures PerformanceFilter(perfs, None, Some(Text.ShowInt(n))).Success?
    ensures forall p :: p in PerformanceFilter(perfs, None, Some(Text.ShowInt(n))).value <==> p in perfs && p.play == n
  {
    Text.ParseShowInt(n);
    assert |Text.ShowInt(n)| > 0;
    PerformanceFilterMembers(perfs, None, Some(Text.ShowInt(n)));
  }

  /** With no parameters, every performance is listed, latest first. */
  lemma PerformanceFilterUnfiltered(perfs: seq<Performance>)
    ensures PerformanceFilter(perfs, None, None).Success?
    ensures multiset(PerformanceFilter(perfs, None, None).value) == multiset(perfs)
  {
  }

  // ---------------------------------------------------------------------
  // The reservation list
  // ---------------------------------------------------------------------

  function OwnedBy(user: nat): Reservation -> bool { (x: Reservation) => x.user == user }

  /** `ReservationViewSet.get_queryset`: the requesting user's reservations,
      newest first. */
  function ReservationsOf(db: Db, user: nat): (r: seq<Reservation>)
    ensures forall x :: x in r <==> x in db.reservations && x.user == user
    ensures forall i, j :: 0 <= i < j < |r| ==> r[i].createdAt >= r[j].createdAt
  {
    var mine := Filter(db.reservations, OwnedBy(user));
    PermutationSameElements(mine, ListReservations(mine));
    ListReservations(mine)
  }

  /** After a reservation is created, its owner's list holds it, and every
      other user's list holds what it held before. */
  lemma NewReservationListedForOwner(db: Db, seatOk: Serializers.SeatRule, user: nat, now: Time,
                                     qs: seq<Serializers.TicketRequest>, other: nat)
    requires Serializers.CreateReservation(db, seatOk, user, now, qs).1.Success?
    ensures var out := Serializers.CreateReservation(db, seatOk, user, now, qs);
      out.1.value in ReservationsOf(out.0, user)
    ensures var out := Serializers.CreateReservation(db, seatOk, user, now, qs);
      other != user ==> forall x :: x in ReservationsOf(out.0, other) <==> x in ReservationsOf(db, other)
  {
  }
}

=== FILE: lifecycle.dfy ===
/** The database over a sequence of the modelled writes, applied one after
    another: creating halls, plays, performances and reservations, and
    deleting reservations, performances, halls, plays and users with their
    cascades. Of these the API routes play and performance creation,
    reservation creation and performance deletion; the others are admin
    writes. A rejected write leaves the database as it was (its transaction
    is rolled back). */
module Lifecycle {
  import opened Seqs
  import opened Models
  import opened Serializers

  datatype Op =
    | NewHall(name: string, rows: int, seatsInRow: int)
    | NewPlay(title: string, description: string, genres: set<nat>, artists: set<nat>)
    | NewPerformance(play: nat, hall: nat, showTime: Time)
    | Reserve(user: nat, now: Time, entries: seq<TicketRequest>)
    | RemoveReservation(id: nat)
    | RemovePerformance(id: nat)
    | RemoveHall(id: nat)
    | RemovePlay(id: nat)
    | RemoveUser(user: nat)

  function Apply(db: Db, seatOk: SeatRule, op: Op): Db {
    match op
    case NewHall(name, rows, seats) => AddHall(db, name, rows, seats)
    case NewPlay(title, description, genres, artists) => AddPlay(db, title, description, genres, artists)
    case NewPerformance(play, hall, showTime) =>
      var r := AddPerformance(db, play, hall, showTime);
      if r.Success? then r.value else db
    case Reserve(user, now, entries) => CreateReservation(db, seatOk, user, now, entries).0
    case RemoveReservation(id) => DeleteReservation(db, id)
    case RemovePerformance(id) => DeletePerformance(db, id)
    case RemoveHall(id) => DeleteHall(db, id)
    case RemovePlay(id) => DeletePlay(db, id)
    case RemoveUser(user) => DeleteUser(db, user)
  }

  function Run(db: Db, seatOk: SeatRule, ops: seq<Op>): Db
    decreases |ops|
  {
    if |ops| == 0 then db else Run(Apply(db, seatOk, ops[0]), seatOk, ops[1..])
  }

  /** Every modelled write keeps the database well formed. */
  lemma ApplyWf(db: Db, seatOk: SeatRule, op: Op)
    requires Wf(db)
    ensures Wf(Apply(db, seatOk, op))
  {
    match op
    case NewHall(name, rows, seats) => AddHallWf(db, name, rows, seats);
    case NewPlay(title, description, genres, artists) => AddPlayWf(db, title, description, genres, artists);
    case NewPerformance(play, hall, showTime) =>
      if AddPerformance(db, play, hall, showTime).Success? {
        AddPerformanceWf(db, play, hall, showTime);
      }
    case Reserve(user, now, entries) => CreateReservationWf(db, seatOk, user, now, entries);
    case RemoveReservation(id) => DeleteReservationWf(db, id);
    case RemovePerformance(id) => DeletePerformanceWf(db, id);
    case RemoveHall(id) => DeleteHallWf(db, id);
    case RemovePlay(id) => DeletePlayWf(db, id);
    case RemoveUser(user) => DeleteUserWf(db, user);
  }

  /** Any sequence of modelled writes keeps the database well formed. */
  lemma {:induction false} RunWf(db: Db, seatOk: SeatRule, ops: seq<Op>)
    requires Wf(db)
    ensures Wf(Run(db, seatOk, ops))
    decreases |ops|
  {
    if |ops| > 0 {
      ApplyWf(db, seatOk, ops[0]);
      RunWf(Apply(db, seatOk, ops[0]), seatOk, ops[1..]);
    }
  }

  /** Starting from an empty database, no seat of a performance is ever sold
      twice, and every ticket belongs to an existing performance and
      reservation. */
  lemma NoSeatSoldTwice(seatOk: SeatRule, ops: seq<Op>)
    ensures SeatsUnique(Run(Empty, seatOk, ops).tickets)
    ensures forall t :: t in Run(Empty, seatOk, ops).tickets ==>
      t.performance in PerformanceIds(Run(Empty, seatOk, ops)) && t.reservation in ReservationIds(Run(Empty, seatOk, ops))
  {
    EmptyWf();
    RunWf(Empty, seatOk, ops);
  }

  /** No modelled write rewrites a reservation: a reservation present before and
      after the write, under the same id, is the same record (its owner and
      `created_at` never change). */
  lemma ApplyKeepsReservations(db: Db, seatOk: SeatRule, op: Op)
    requires Wf(db)
    ensures forall x, y :: x in db.reservations && y in Apply(db, seatOk, op).reservations && x.id == y.id ==> x == y
  {
    var db' := Apply(db, seatOk, op);
    forall x, y | x in db.reservations && y in db'.reservations && x.id == y.id ensures x == y {
      if y in db.reservations {
        DistinctKeyIdentifies(db.reservations, ReservationId, x, y);
      }
    }
  }

  /** Cancelling a reservation frees its seats: no remaining ticket holds the
      seat of any of its tickets. */
  lemma CancelFreesSeats(db: Db, id: nat, t: Ticket)
    requires Wf(db)
    requires t in db.tickets && t.reservation == id
    ensures KeyOf(t) !in KeySet(DeleteReservation(db, id).tickets, KeyOf)
  {
    var rest := DeleteReservation(db, id).tickets;
    forall u | u in rest ensures KeyOf(u) != KeyOf(t) {
      if KeyOf(u) == KeyOf(t) {
        DistinctKeyIdentifies(db.tickets, KeyOf, t, u);
      }
    }
  }

  /** After a cancellation the freed seat can be booked again. */
  lemma CancelThenRebook(db: Db, seatOk: SeatRule, id: nat, t: Ticket, user: nat, now: Time)
    requires Wf(db)
    requires t in db.tickets && t.reservation == id
    requires ValidateTicket(db, seatOk, TicketRequest(t.performance, t.row, t.seat)).Success?
    ensures CreateReservation(DeleteReservation(db, id), seatOk, user, now,
                              [TicketRequest(t.performance, t.row, t.seat)]).1.Success?
  {
    var q := TicketRequest(t.performance, t.row, t.seat);
    var db' := DeleteReservation(db, id);
    CancelFreesSeats(db, id, t);
    assert ValidateTicket(db', seatOk, q) == ValidateTicket(db, seatOk, q);
    assert KeySet([q], RequestKey) == {RequestKey(q)};
    CreateReservationIff(db', seatOk, user, now, [q]);
  }
}

=== FILE: models.dfy ===
/** The tables of the theatre application and what the schema itself
    guarantees about them: primary keys, the unique (performance, row, seat)
    constraint on tickets, foreign keys with `ON DELETE CASCADE`, and each
    model's default ordering. The whole database is one immutable value. */
module Models {
  import opened Results
  import opened Seqs
  import Text

  /** A timestamp in seconds, in UTC. */
  type Time = int

  const SecondsPerDay: int := 86400

  /** The calendar day a timestamp falls on (the `__date` transform, in UTC). */
  function DateOf(t: Time): int {
    t / SecondsPerDay
  }

  datatype Artist = Artist(id: nat, firstName: string, lastName: string)

  /** `genres` and `artists` hold the primary keys of the many-to-many links. */
  datatype Play = Play(id: nat, title: string, description: string, genres: set<nat>, artists: set<nat>)

  datatype Hall = Hall(id: nat, name: string, rows: int, seatsInRow: int)

  datatype Performance = Performance(id: nat, play: nat, hall: nat, showTime: Time)

  datatype Reservation = Reservation(id: nat, createdAt: Time, user: nat)

  datatype Ticket = Ticket(row: int, seat: int, performance: nat, reservation: nat)

  /** A seat of a hall: its row and its number within the row. */
  datatype Place = Place(row: int, seat: int)

  /** The columns of the ticket table's unique constraint. */
  datatype SeatKey = SeatKey(performance: nat, row: int, seat: int)

  datatype Db = Db(
    halls: seq<Hall>,
    plays: seq<Play>,
    performances: seq<Performance>,
    reservations: seq<Reservation>,
    tickets: seq<Ticket>)

  const Empty: Db := Db([], [], [], [], [])

  // ---------------------------------------------------------------------
  // Derived attributes
  // ---------------------------------------------------------------------

  /** The `capacity` property of a hall. */
  function Capacity(h: Hall): (c: int)
    ensures h.rows >= 0 && h.seatsInRow >= 0 ==> c >= 0
    ensures c == 0 <==> h.rows == 0 || h.seatsInRow == 0
  {
    h.rows * h.seatsInRow
  }

  /** The seats of row `r`, numbered from 1. */
  ghost function RowSeats(r: int, seats: int): set<Place> {
    set s | 1 <= s <= seats :: Place(r, s)
  }

  /** Every (row, seat) position of a hall with the given dimensions. */
  ghost function Grid(rows: int, seats: int): set<Place> {
    set r, s | 1 <= r <= rows && 1 <= s <= seats :: Place(r, s)
  }

  lemma {:induction false} RowSeatsSize(r: int, seats: nat)
    ensures |RowSeats(r, seats)| == seats
  {
    if seats == 0 {
      assert RowSeats(r, seats) == {};
    } else {
      RowSeatsSize(r, seats - 1);
      assert RowSeats(r, seats) == RowSeats(r, seats - 1) + {Place(r, seats)};
    }
  }

  lemma {:induction false} GridSize(rows: nat, seats: nat)
    ensures |Grid(rows, seats)| == rows * seats
  {
    if rows == 0 {
      assert Grid(rows, seats) == {};
    } else {
      GridSize(rows - 1, seats);
      RowSeatsSize(rows, seats);
      var upper := Grid(rows - 1, seats);
      var last := RowSeats(rows, seats);
      assert Grid(rows, seats) == upper + last by {
        forall x | x in Grid(rows, seats) ensures x in upper + last {
          if x.row < rows {
            assert x in upper;
          } else {
            assert x in last;
          }
        }
      }
      assert upper !! last by {
        forall x | x in upper ensures x !in last {
          assert x.row < rows;
        }
      }
      assert |upper + last| == |upper| + |last|;
      assert (rows - 1) * seats + seats == rows * seats;
    }
  }

  /** A hall's capacity is the number of seat positions it has. */
  lemma CapacityCountsSeats(h: Hall)
    requires h.rows >= 0 && h.seatsInRow >= 0
    ensures |Grid(h.rows, h.seatsInRow)| == Capacity(h)
  {
    GridSize(h.rows, h.seatsInRow);
  }

  /** `Artist.__str__`: the first name, one space, the last name. */
  function ArtistName(a: Artist): (s: string)
    ensures |s| == |a.firstName| + 1 + |a.lastName|
    ensures s[..|a.firstName|] == a.firstName
    ensures s[|a.firstName|] == ' '
    ensures s[|a.firstName| + 1..] == a.lastName
  {
    a.firstName + " " + a.lastName
  }

  /** When neither name contains a space, splitting the display name on
      spaces gives the two names back. */
  lemma ArtistNameSplits(a: Artist)
    requires ' ' !in a.firstName && ' ' !in a.lastName
    ensures Text.Split(ArtistName(a), ' ') == [a.firstName, a.lastName]
  {
    var parts := [a.firstName, a.lastName];
    assert parts[1..] == [a.lastName];
    assert Text.Join(parts, ' ') == ArtistName(a);
    Text.SplitJoin(parts, ' ');
  }

  // ---------------------------------------------------------------------
  // Keys and the well-formedness of a database
  // ---------------------------------------------------------------------

  function PlaceOf(t: Ticket): Place {
    Place(t.row, t.seat)
  }

  function KeyOf(t: Ticket): SeatKey {
    SeatKey(t.performance, t.row, t.seat)
  }

  function HallId(h: Hall): nat { h.id }
  function PlayId(p: Play): nat { p.id }
  function PerformanceId(p: Performance): nat { p.id }
  function ReservationId(r: Reservation): nat { r.id }

  /** The constraint `unique_together = ("performance", "row", "seat")`. */
  predicate SeatsUnique(ts: seq<Ticket>) {
    DistinctBy(ts, KeyOf)
  }

  ghost function HallIds(db: Db): set<nat> { KeySet(db.halls, HallId) }
  ghost function PlayIds(db: Db): set<nat> { KeySet(db.plays, PlayId) }
  ghost function PerformanceIds(db: Db): set<nat> { KeySet(db.performances, PerformanceId) }
  ghost function ReservationIds(db: Db): set<nat> { KeySet(db.reservations, ReservationId) }

  /** Primary keys are unique, the ticket constraint holds, and every
      foreign key points at an existing row. */
  ghost predicate Wf(db: Db) {
    && DistinctBy(db.halls, HallId)
    && DistinctBy(db.plays, PlayId)
    && DistinctBy(db.performances, PerformanceId)
    && DistinctBy(db.reservations, ReservationId)
    && SeatsUnique(db.tickets)
    && (forall p :: p in db.performances ==> p.hall in HallIds(db) && p.play in PlayIds(db))
    && (forall t :: t in db.tickets ==> t.performance in PerformanceIds(db) && t.reservation in ReservationIds(db))
  }

  lemma EmptyWf()
    ensures Wf(Empty)
  {
  }

  function ForPerformance(id: nat): Ticket -> bool { (t: Ticket) => t.performance == id }

  /** The tickets sold for performance `id` (the reverse relation of `Ticket.performance`). */
  function TicketsOf(ts: seq<Ticket>, id: nat): (r: seq<Ticket>)
    ensures forall t :: t in r <==> t in ts && t.performance == id
  {
    Filter(ts, ForPerformance(id))
  }

  function FindHall(db: Db, id: nat): (r: Option<Hall>)
    ensures r.Some? ==> r.value in db.halls && r.value.id == id
    ensures r.None? <==> id !in HallIds(db)
  {
    Find(db.halls, HallId, id)
  }

  function FindPerformance(db: Db, id: nat): (r: Option<Performance>)
    ensures r.Some? ==> r.value in db.performances && r.value.id == id
    ensures r.None? <==> id !in PerformanceIds(db)
  {
    Find(db.performances, PerformanceId, id)
  }

  // ---------------------------------------------------------------------
  // Default orderings (`Meta.ordering`)
  // ---------------------------------------------------------------------

  /** `ordering = ("row", "seat")`. */
  predicate TicketOrder(a: Ticket, b: Ticket) {
    a.row < b.row || (a.row == b.row && a.seat <= b.seat)
  }

  /** `ordering = ("-show_time",)`. */
  predicate PerformanceOrder(a: Performance, b: Performance) {
    a.showTime >= b.showTime
  }

  /** `ordering = ("-created_at",)`. */
  predicate ReservationOrder(a: Reservation, b: Reservation) {
    a.createdAt >= b.createdAt
  }

  /** `ordering = ("title",)`. */
  predicate PlayOrder(a: Play, b: Play) {
    Text.StrLe(a.title, b.title)
  }

  lemma TicketOrderTotal()
    ensures TotalPreorder(TicketOrder)
  {
  }

  lemma PerformanceOrderTotal()
    ensures TotalPreorder(PerformanceOrder)
  {
  }

  lemma ReservationOrderTotal()
    ensures TotalPreorder(ReservationOrder)
  {
  }

  lemma PlayOrderTotal()
    ensures TotalPreorder(PlayOrder)
  {
    forall a: Play, b: Play ensures PlayOrder(a, b) || PlayOrder(b, a) {
      Text.StrLeTotal(a.title, b.title);
    }
    forall a: Play, b: Play, c: Play | PlayOrder(a, b) && PlayOrder(b, c) ensures PlayOrder(a, c) {
      Text.StrLeTransitive(a.title, b.title, c.title);
    }
  }

  /** Tickets as listed: the same tickets, by row and then by seat. */
  function ListTickets(ts: seq<Ticket>): (r: seq<Ticket>)
    ensures multiset(r) == multiset(ts)
    ensures forall i, j :: 0 <= i < j < |r| ==>
      r[i].row < r[j].row || (r[i].row == r[j].row && r[i].seat <= r[j].seat)
  {
    TicketOrderTotal();
    SortBy(ts, TicketOrder)
  }

  /** Performances as listed: the same performances, latest show first. */
  function ListPerformances(ps: seq<Performance>): (r: seq<Performance>)
    ensures multiset(r) == multiset(ps)
    ensures forall i, j :: 0 <= i < j < |r| ==> r[i].showTime >= r[j].showTime
  {
    PerformanceOrderTotal();
    SortBy(ps, PerformanceOrder)
  }

  /** Reservations as listed: the same reservations, newest first. */
  function ListReservations(rs: seq<Reservation>): (r: seq<Reservation>)
    ensures multiset(r) == multiset(rs)
    ensures forall i, j :: 0 <= i < j < |r| ==> r[i].createdAt >= r[j].createdAt
  {
    ReservationOrderTotal();
    SortBy(rs, ReservationOrder)
  }

  /** Plays as listed: the same plays, by title. */
  function ListPlays(ps: seq<Play>): (r: seq<Play>)
    ensures multiset(r) == multiset(ps)
    ensures forall i, j :: 0 <= i < j < |r| ==> Text.StrLe(r[i].title, r[j].title)
  {
    PlayOrderTotal();
    SortBy(ps, PlayOrder)
  }

  // ---------------------------------------------------------------------
  // Row creation
  // ---------------------------------------------------------------------

  /** A new hall. The model puts no bound on the dimensions or the name:
      the 32-bit column range and the 255-character limit the database and
      Django's validators enforce are not modelled. */
  function AddHall(db: Db, name: string, rows: int, seatsInRow: int): (r: Db)
    ensures r == db.(halls := r.halls)
    ensures |r.halls| == |db.halls| + 1 && r.halls[..|db.halls|] == db.halls
    ensures var h := r.halls[|db.halls|];
      h.name == name && h.rows == rows && h.seatsInRow == seatsInRow && h.id !in HallIds(db)
  {
    db.(halls := db.halls + [Hall(NextId(db.halls, HallId), name, rows, seatsInRow)])
  }

  /** A new play. */
  function AddPlay(db: Db, title: string, description: string, genres: set<nat>, artists: set<nat>): (r: Db)
    ensures r == db.(plays := r.plays)
    ensures |r.plays| == |db.plays| + 1 && r.plays[..|db.plays|] == db.plays
    ensures var p := r.plays[|db.plays|];
      p.title == title && p.genres == genres && p.artists == artists && p.id !in PlayIds(db)
  {
    db.(plays := db.plays + [Play(NextId(db.plays, PlayId), title, description, genres, artists)])
  }

  /** A new performance; both foreign keys must resolve. */
  function AddPerformance(db: Db, play: nat, hall: nat, showTime: Time): (r: Result<Db, Error>)
    ensures r.Success? <==> play in PlayIds(db) && hall in HallIds(db)
    ensures r.Failure? && play !in PlayIds(db) ==> r.error == UnknownPlay(play)
    ensures r.Failure? && play in PlayIds(db) ==> r.error == UnknownHall(hall)
    ensures r.Success? ==>
      && r.value == db.(performances := r.value.performances)
      && |r.value.performances| == |db.performances| + 1
      && r.value.performances[..|db.performances|] == db.performances
      && var p := r.value.performances[|db.performances|];
         p.play == play && p.hall == hall && p.showTime == showTime && p.id !in PerformanceIds(db)
  {
    if Find(db.plays, PlayId, play).None? then Failure(UnknownPlay(play))
    else if Find(db.halls, HallId, hall).None? then Failure(UnknownHall(hall))
    else
      var p := Performance(NextId(db.performances, PerformanceId), play, hall, showTime);
      Success(db.(performances := db.performances + [p]))
  }

  lemma AddHallWf(db: Db, name: string, rows: int, seatsInRow: int)
    requires Wf(db)
    ensures Wf(AddHall(db, name, rows, seatsInRow))
  {
    var r := AddHall(db, name, rows, seatsInRow);
    DistinctAppendOne(db.halls, r.halls[|db.halls|], HallId);
    assert r.halls == db.halls + [r.halls[|db.halls|]];
    assert HallIds(db) <= HallIds(r);
  }

  lemma AddPlayWf(db: Db, title: string, description: string, genres: set<nat>, artists: set<nat>)
    requires Wf(db)
    ensures Wf(AddPlay(db, title, description, genres, artists))
  {
    var r := AddPlay(db, title, description, genres, artists);
    DistinctAppendOne(db.plays, r.plays[|db.plays|], PlayId);
    assert r.plays == db.plays + [r.plays[|db.plays|]];
    assert PlayIds(db) <= PlayIds(r);
  }

  lemma AddPerformanceWf(db: Db, play: nat, hall: nat, showTime: Time)
    requires Wf(db)
    requires AddPerformance(db, play, hall, showTime).Success?
    ensures Wf(AddPerformance(db, play, hall, showTime).value)
  {
    var r := AddPerformance(db, play, hall, showTime).value;
    var p := r.performances[|db.performances|];
    DistinctAppendOne(db.performances, p, PerformanceId);
    assert r.performances == db.performances + [p];
    assert PerformanceIds(db) <= PerformanceIds(r);
  }

  // ---------------------------------------------------------------------
  // Deletion with ON DELETE CASCADE
  // ---------------------------------------------------------------------

  function ReservationIdIsNot(id: nat): Reservation -> bool { (r: Reservation) => r.id != id }
  function PerformanceIdIsNot(id: nat): Performance -> bool { (p: Performance) => p.id != id }
  function HallIdIsNot(id: nat): Hall -> bool { (h: Hall) => h.id != id }
  function PlayIdIsNot(id: nat): Play -> bool { (p: Play) => p.id != id }
  function NotInHall(hall: nat): Performance -> bool { (p: Performance) => p.hall != hall }
  function NotOfPlay(play: nat): Performance -> bool { (p: Performance) => p.play != play }
  function NotOwnedBy(user: nat): Reservation -> bool { (r: Reservation) => r.user != user }
  function NotInReservation(id: nat): Ticket -> bool { (t: Ticket) => t.reservation != id }
  function NotForPerformance(id: nat): Ticket -> bool { (t: Ticket) => t.performance != id }
  function NotForPerformances(ids: set<nat>): Ticket -> bool { (t: Ticket) => t.performance !in ids }
  function NotInReservations(ids: set<nat>): Ticket -> bool { (t: Ticket) => t.reservation !in ids }

  /** The performances a hall deletion takes with it. */
  function PerformancesInHall(db: Db, hall: nat): set<nat> {
    set p | p in db.performances && p.hall == hall :: p.id
  }

  /** The performances a play deletion takes with it. */
  function PerformancesOfPlay(db: Db, play: nat): set<nat> {
    set p | p in db.performances && p.play == play :: p.id
  }

  /** The reservations a user deletion takes with it. */
  function ReservationsOfUser(db: Db, user: nat): set<nat> {
    set x | x in db.reservations && x.user == user :: x.id
  }

  /** Deleting a reservation deletes exactly its tickets. */
  function DeleteReservation(db: Db, id: nat): (r: Db)
    ensures r.halls == db.halls && r.plays == db.plays && r.performances == db.performances
    ensures forall x :: x in r.reservations <==> x in db.reservations && x.id != id
    ensures forall t :: t in r.tickets <==> t in db.tickets && t.reservation != id
  {
    db.(reservations := Filter(db.reservations, ReservationIdIsNot(id)),
        tickets := Filter(db.tickets, NotInReservation(id)))
  }

  /** Deleting a performance deletes exactly its tickets. */
  function DeletePerformance(db: Db, id: nat): (r: Db)
    ensures r.halls == db.halls && r.plays == db.plays && r.reservations == db.reservations
    ensures forall p :: p in r.performances <==> p in db.performances && p.id != id
    ensures forall t :: t in r.tickets <==> t in db.tickets && t.performance != id
  {
    db.(performances := Filter(db.performances, PerformanceIdIsNot(id)),
        tickets := Filter(db.tickets, NotForPerformance(id)))
  }

  /** Deleting a hall deletes its performances and, through them, their tickets. */
  function DeleteHall(db: Db, id: nat): (r: Db)
    ensures r.plays == db.plays && r.reservations == db.reservations
    ensures forall h :: h in r.halls <==> h in db.halls && h.id != id
    ensures forall p :: p in r.performances <==> p in db.performances && p.hall != id
    ensures forall t :: t in r.tickets <==>
      t in db.tickets && !(exists p :: p in db.performances && p.hall == id && p.id == t.performance)
  {
    var gone := PerformancesInHall(db, id);
    db.(halls := Filter(db.halls, HallIdIsNot(id)),
        performances := Filter(db.performances, NotInHall(id)),
        tickets := Filter(db.tickets, NotForPerformances(gone)))
  }

  /** Deleting a play deletes its performances and, through them, their tickets. */
  function DeletePlay(db: Db, id: nat): (r: Db)
    ensures r.halls == db.halls && r.reservations == db.reservations
    ensures forall p :: p in r.plays <==> p in db.plays && p.id != id
    ensures forall p :: p in r.performances <==> p in db.performances && p.play != id
    ensures forall t :: t in r.tickets <==>
      t in db.tickets && !(exists p :: p in db.performances && p.play == id && p.id == t.performance)
  {
    var gone := PerformancesOfPlay(db, id);
    db.(plays := Filter(db.plays, PlayIdIsNot(id)),
        performances := Filter(db.performances, NotOfPlay(id)),
        tickets := Filter(db.tickets, NotForPerformances(gone)))
  }

  /** Deleting a user deletes their reservations and, through them, their tickets. */
  function DeleteUser(db: Db, user: nat): (r: Db)
    ensures r.halls == db.halls && r.plays == db.plays && r.performances == db.performances
    ensures forall x :: x in r.reservations <==> x in db.reservations && x.user != user
    ensures forall t :: t in r.tickets <==>
      t in db.tickets && !(exists x :: x in db.reservations && x.user == user && x.id == t.reservation)
  {
    var gone := ReservationsOfUser(db, user);
    db.(reservations := Filter(db.reservations, NotOwnedBy(user)),
        tickets := Filter(db.tickets, NotInReservations(gone)))
  }

  lemma DeleteReservationWf(db: Db, id: nat)
    requires Wf(db)
    ensures Wf(DeleteReservation(db, id))
  {
    FilterDistinct(db.reservations, ReservationIdIsNot(id), ReservationId);
    FilterDistinct(db.tickets, NotInReservation(id), KeyOf);
    var r := DeleteReservation(db, id);
    forall t | t in r.tickets ensures t.reservation in ReservationIds(r) {
      var x :| x in db.reservations && x.id == t.reservation;
      assert x in r.reservations;
    }
  }

  lemma DeletePerformanceWf(db: Db, id: nat)
    requires Wf(db)
    ensures Wf(DeletePerformance(db, id))
  {
    FilterDistinct(db.performances, PerformanceIdIsNot(id), PerformanceId);
    FilterDistinct(db.tickets, NotForPerformance(id), KeyOf);
    var r := DeletePerformance(db, id);
    forall t | t in r.tickets ensures t.performance in PerformanceIds(r) {
      var p :| p in db.performances && p.id == t.performance;
      assert p in r.performances;
    }
  }

  lemma DeleteHallKeys(db: Db, id: nat)
    requires Wf(db)
    ensures var r := DeleteHall(db, id);
      DistinctBy(r.halls, HallId) && DistinctBy(r.performances, PerformanceId) && SeatsUnique(r.tickets)
  {
    FilterDistinct(db.halls, HallIdIsNot(id), HallId);
    FilterDistinct(db.performances, NotInHall(id), PerformanceId);
    FilterDistinct(db.tickets, NotForPerformances(PerformancesInHall(db, id)), KeyOf);
  }

  lemma DeleteHallRefs(db: Db, id: nat)
    requires Wf(db)
    ensures var r := DeleteHall(db, id);
      && (forall p :: p in r.performances ==> p.hall in HallIds(r) && p.play in PlayIds(r))
      && (forall t :: t in r.tickets ==> t.performance in PerformanceIds(r) && t.reservation in ReservationIds(r))
  {
    var r := DeleteHall(db, id);
    forall p | p in r.performances ensures p.hall in HallIds(r) {
      var h :| h in db.halls && h.id == p.hall;
      assert h in r.halls;
    }
    forall t | t in r.tickets ensures t.performance in PerformanceIds(r) {
      var p :| p in db.performances && p.id == t.performance;
      assert p in r.performances;
    }
  }

  lemma DeleteHallWf(db: Db, id: nat)
    requires Wf(db)
    ensures Wf(DeleteHall(db, id))
  {
    DeleteHallKeys(db, id);
    DeleteHallRefs(db, id);
  }

  lemma DeletePlayKeys(db: Db, id: nat)
    requires Wf(db)
    ensures var r := DeletePlay(db, id);
      DistinctBy(r.plays, PlayId) && DistinctBy(r.performances, PerformanceId) && SeatsUnique(r.tickets)
  {
    FilterDistinct(db.plays, PlayIdIsNot(id), PlayId);
    FilterDistinct(db.performances, NotOfPlay(id), PerformanceId);
    FilterDistinct(db.tickets, NotForPerformances(PerformancesOfPlay(db, id)), KeyOf);
  }

  lemma DeletePlayRefs(db: Db, id: nat)
    requires Wf(db)
    ensures var r := DeletePlay(db, id);
      && (forall p :: p in r.performances ==> p.hall in HallIds(r) && p.play in PlayIds(r))
      && (forall t :: t in r.tickets ==> t.performance in PerformanceIds(r) && t.reservation in ReservationIds(r))
  {
    var r := DeletePlay(db, id);
    forall p | p in r.performances ensures p.play in PlayIds(r) {
      var x :| x in db.plays && x.id == p.play;
      assert x in r.plays;
    }
    forall t | t in r.tickets ensures t.performance in PerformanceIds(r) {
      var p :| p in db.performances && p.id == t.performance;
      assert p in r.performances;
    }
  }

  lemma DeletePlayWf(db: Db, id: nat)
    requires Wf(db)
    ensures Wf(DeletePlay(db, id))
  {
    DeletePlayKeys(db, id);
    DeletePlayRefs(db, id);
  }

  lemma DeleteUserWf(db: Db, user: nat)
    requires Wf(db)
    ensures Wf(DeleteUser(db, user))
  {
    var gone := ReservationsOfUser(db, user);
    FilterDistinct(db.reservations, NotOwnedBy(user), ReservationId);
    FilterDistinct(db.tickets, NotInReservations(gone), KeyOf);
    var r := DeleteUser(db, user);
    forall t | t in r.tickets ensures t.reservation in ReservationIds(r) {
      var x :| x in db.reservations && x.id == t.reservation;
      assert x in r.reservations;
    }
  }
}

=== FILE: permissions.dfy ===
/** Who may call what: the `IsAdminUserOrReadOnly` permission of the
    catalogue view sets and `IsAuthenticated` on the reservation view set. */
module Permissions {
  import opened Results
  import opened Actions

  /** The user a request carries: the anonymous user, or an account. */
  datatype User = Anonymous | Account(id: nat, isStaff: bool)

  /** DRF's `SAFE_METHODS`. The method reaches `has_permission` already
      upper-cased by Django. */
  const SafeMethods: set<string> := {"GET", "HEAD", "OPTIONS"}

  /** `request.user and request.user.is_staff`: the request carries a user,
      the user is an account, and the account is staff. The anonymous user is
      a true value whose `is_staff` is false. */
  predicate IsStaff(user: Option<User>) {
    user.Some? && user.value.Account? && user.value.isStaff
  }

  /** `IsAdminUserOrReadOnly.has_permission`. */
  function IsAdminUserOrReadOnly(verb: string, user: Option<User>): (allowed: bool)
    ensures verb in SafeMethods ==> allowed
    ensures allowed <==> verb in SafeMethods || exists id :: user == Some(Account(id, true))
  {
    verb in SafeMethods || IsStaff(user)
  }

  /** DRF's `IsAuthenticated`: the request carries an account. */
  function IsAuthenticated(user: Option<User>): (signedIn: bool)
    ensures signedIn <==> exists id, staff :: user == Some(Account(id, staff))
  {
    user.Some? && user.value.Account?
  }

  /** The permission class each view set declares. */
  predicate Permits(v: ViewSet, verb: string, user: Option<User>) {
    if v == ReservationViews then IsAuthenticated(user) else IsAdminUserOrReadOnly(verb, user)
  }

  /** The catalogue can be read by anyone and changed by staff accounts only. */
  lemma CatalogueAccess(v: ViewSet, verb: string, user: Option<User>)
    requires v != ReservationViews
    ensures Permits(v, verb, user) <==>
      verb == "GET" || verb == "HEAD" || verb == "OPTIONS" || exists id :: user == Some(Account(id, true))
  {
    if IsStaff(user) {
      assert user == Some(Account(user.value.id, true));
    }
  }

  /** Reservations are for signed-in accounts only, whatever the HTTP method and
      whether or not the account is staff. */
  lemma ReservationAccess(verb: string, user: Option<User>)
    ensures Permits(ReservationViews, verb, user) <==> exists id, staff :: user == Some(Account(id, staff))
  {
    if IsAuthenticated(user) {
      assert user == Some(Account(user.value.id, user.value.isStaff));
    }
  }

  /** The anonymous user may only read the catalogue. */
  lemma AnonymousAccess(v: ViewSet, verb: string)
    ensures Permits(v, verb, Some(Anonymous)) <==> v != ReservationViews && verb in SafeMethods
    ensures Permits(v, verb, None) <==> v != ReservationViews && verb in SafeMethods
  {
  }

  /** A staff account may do everything everywhere. */
  lemma StaffAccess(v: ViewSet, verb: string, id: nat)
    ensures Permits(v, verb, Some(Account(id, true)))
  {
  }

  /** The catalogue permission depends on the account only through its
      staff flag. */
  lemma AdminOrReadOnlyIgnoresIdentity(verb: string, id1: nat, id2: nat, staff: bool)
    ensures IsAdminUserOrReadOnly(verb, Some(Account(id1, staff))) == IsAdminUserOrReadOnly(verb, Some(Account(id2, staff)))
  {
  }
}

=== FILE: results.dfy ===
/** Failure-carrying wrappers used by every operation of the model.
    `Result` stands for a Python call that either returns a value or raises. */
module Results {

  datatype Option<+T> = None | Some(value: T)

  datatype Result<+R, +E> = Success(value: R) | Failure(error: E)

  /** Everything the modelled code can raise, named after what it means. */
  datatype Error =
    | EmptyReservation                                   // `allow_empty=False` on the ticket list
    | UnknownPerformance(performanceId: nat)              // a performance primary key that does not resolve
    | UnknownHall(hallId: nat)                            // a hall primary key that does not resolve
    | UnknownPlay(playId: nat)                            // a play primary key that does not resolve
    | SeatRejected(row: int, seat: int)                   // `ValidationError` from the seat-bounds rule
    | SeatAlreadyTaken(performance: nat, row: int, seat: int) // unique (performance, row, seat) violated
    | InvalidInteger(text: string)                        // `ValueError` from Python's `int()`
    | MissingKey(key: string)                             // `KeyError` from `dict.pop`
}

=== FILE: seqs.dfy ===
/** Sequence operations that stand in for the query-set primitives the
    application uses: `filter`, `distinct`, `order_by` and "count". A table
    or a query set is a `seq` of immutable rows. */
module Seqs {
  import opened Results

  /** The rows of `s` that satisfy `keep`, in their original order (a SQL `WHERE`). */
  function Filter<T(!new)>(s: seq<T>, keep: T -> bool): (r: seq<T>)
    ensures |r| <= |s|
    ensures forall x :: x in r <==> x in s && keep(x)
  {
    if |s| == 0 then []
    else
      assert s == [s[0]] + s[1..];
      if keep(s[0]) then [s[0]] + Filter(s[1..], keep)
      else Filter(s[1..], keep)
  }

  lemma {:induction false} FilterAppend<T(!new)>(a: seq<T>, b: seq<T>, keep: T -> bool)
    ensures Filter(a + b, keep) == Filter(a, keep) + Filter(b, keep)
  {
    if |a| == 0 {
      assert a + b == b;
    } else {
      assert (a + b)[1..] == a[1..] + b;
      FilterAppend(a[1..], b, keep);
    }
  }

  /** Two conditions that agree on every row select the same rows. */
  lemma {:induction false} FilterSameKeep<T(!new)>(s: seq<T>, f: T -> bool, g: T -> bool)
    requires forall x :: f(x) == g(x)
    ensures Filter(s, f) == Filter(s, g)
  {
    if |s| > 0 {
      FilterSameKeep(s[1..], f, g);
    }
  }

  /** Filtering keeps nothing when no row passes. */
  lemma {:induction false} FilterNone<T(!new)>(s: seq<T>, keep: T -> bool)
    requires forall i :: 0 <= i < |s| ==> !keep(s[i])
    ensures Filter(s, keep) == []
  {
    if |s| > 0 {
      FilterNone(s[1..], keep);
    }
  }

  /** Filtering keeps every row when every row passes. */
  lemma {:induction false} FilterAll<T(!new)>(s: seq<T>, keep: T -> bool)
    requires forall i :: 0 <= i < |s| ==> keep(s[i])
    ensures Filter(s, keep) == s
  {
    if |s| > 0 {
      FilterAll(s[1..], keep);
    }
  }

  /** No two rows of `s` share a `key`: a SQL unique constraint. */
  predicate DistinctBy<T, K(==)>(s: seq<T>, key: T -> K) {
    forall i, j :: 0 <= i < j < |s| ==> key(s[i]) != key(s[j])
  }

  /** The set of keys present in `s`. */
  ghost function KeySet<T(!new), K>(s: seq<T>, key: T -> K): (ks: set<K>)
    ensures forall x :: x in s ==> key(x) in ks
    ensures forall k :: k in ks ==> exists x :: x in s && key(x) == k
  {
    set x | x in s :: key(x)
  }

  /** Lookup by key (a `get(pk=...)`): the first row with key `k`, if any. */
  function Find<T(!new), K(==)>(s: seq<T>, key: T -> K, k: K): (r: Option<T>)
    ensures r.Some? ==> r.value in s && key(r.value) == k
    ensures r.None? <==> k !in KeySet(s, key)
  {
    if |s| == 0 then None
    else if key(s[0]) == k then Some(s[0])
    else
      var r := Find(s[1..], key, k);
      assert forall x :: x in s ==> x == s[0] || x in s[1..] by {
        assert s == [s[0]] + s[1..];
      }
      r
  }

  /** Under a unique constraint a key identifies its row. */
  lemma DistinctKeyIdentifies<T, K>(s: seq<T>, key: T -> K, a: T, b: T)
    requires DistinctBy(s, key)
    requires a in s && b in s && key(a) == key(b)
    ensures a == b
  {
    var i :| 0 <= i < |s| && s[i] == a;
    var j :| 0 <= j < |s| && s[j] == b;
    if i < j {
      assert key(s[i]) != key(s[j]);
    } else if j < i {
      assert key(s[j]) != key(s[i]);
    }
  }

  /** Appending one row keeps the constraint exactly when its key is new. */
  lemma DistinctAppendOne<T(!new), K>(s: seq<T>, x: T, key: T -> K)
    ensures DistinctBy(s + [x], key) <==> DistinctBy(s, key) && key(x) !in KeySet(s, key)
  {
    var t := s + [x];
    if DistinctBy(t, key) {
      forall i, j | 0 <= i < j < |s| ensures key(s[i]) != key(s[j]) {
        assert t[i] == s[i] && t[j] == s[j];
      }
      forall y | y in s ensures key(y) != key(x) {
        var i :| 0 <= i < |s| && s[i] == y;
        assert t[i] == y && t[|s|] == x;
      }
    }
    if DistinctBy(s, key) && key(x) !in KeySet(s, key) {
      forall i, j | 0 <= i < j < |t| ensures key(t[i]) != key(t[j]) {
        if j == |s| {
          assert t[i] == s[i] && t[j] == x;
          assert key(s[i]) in KeySet(s, key);
        } else {
          assert t[i] == s[i] && t[j] == s[j];
        }
      }
    }
  }

  lemma KeySetConcat<T(!new), K>(a: seq<T>, b: seq<T>, key: T -> K)
    ensures KeySet(a + b, key) == KeySet(a, key) + KeySet(b, key)
  {
    assert forall x :: x in a + b <==> x in a || x in b;
  }

  /** Two listings together satisfy the constraint exactly when each does
      and they share no key. */
  lemma DistinctConcat<T(!new), K>(a: seq<T>, b: seq<T>, key: T -> K)
    ensures DistinctBy(a + b, key) <==>
      DistinctBy(a, key) && DistinctBy(b, key) && KeySet(a, key) !! KeySet(b, key)
  {
    var t := a + b;
    if DistinctBy(t, key) {
      forall i, j | 0 <= i < j < |a| ensures key(a[i]) != key(a[j]) {
        assert t[i] == a[i] && t[j] == a[j];
      }
      forall i, j | 0 <= i < j < |b| ensures key(b[i]) != key(b[j]) {
        assert t[|a| + i] == b[i] && t[|a| + j] == b[j];
      }
      forall x, y | x in a && y in b ensures key(x) != key(y) {
        var i :| 0 <= i < |a| && a[i] == x;
        var j :| 0 <= j < |b| && b[j] == y;
        assert t[i] == x && t[|a| + j] == y;
      }
    }
    if DistinctBy(a, key) && DistinctBy(b, key) && KeySet(a, key) !! KeySet(b, key) {
      forall i, j | 0 <= i < j < |t| ensures key(t[i]) != key(t[j]) {
        if j < |a| {
          assert t[i] == a[i] && t[j] == a[j];
        } else if i >= |a| {
          assert t[i] == b[i - |a|] && t[j] == b[j - |a|];
        } else {
          assert t[i] == a[i] && t[j] == b[j - |a|];
          assert key(t[i]) in KeySet(a, key) && key(t[j]) in KeySet(b, key);
        }
      }
    }
  }

  lemma DistinctCons<T(!new), K>(x: T, s: seq<T>, key: T -> K)
    ensures DistinctBy([x] + s, key) <==> DistinctBy(s, key) && key(x) !in KeySet(s, key)
  {
    DistinctConcat([x], s, key);
    assert KeySet([x], key) == {key(x)};
  }

  /** A listing satisfies a unique constraint exactly when it has as many
      distinct keys as rows. */
  lemma {:induction false} DistinctIffCard<T(!new), K>(s: seq<T>, key: T -> K)
    ensures |KeySet(s, key)| <= |s|
    ensures DistinctBy(s, key) <==> |KeySet(s, key)| == |s|
  {
    if |s| == 0 {
      assert KeySet(s, key) == {};
    } else {
      var x := s[0];
      var rest := s[1..];
      assert s == [x] + rest;
      DistinctIffCard(rest, key);
      DistinctCons(x, rest, key);
      KeySetConcat([x], rest, key);
      assert KeySet([x], key) == {key(x)};
      if key(x) in KeySet(rest, key) {
        assert KeySet(s, key) == KeySet(rest, key);
      } else {
        assert |KeySet(s, key)| == |KeySet(rest, key)| + 1;
      }
    }
  }

  /** A reordering has the same length and the same elements. */
  lemma PermutationSameElements<T>(a: seq<T>, b: seq<T>)
    requires multiset(a) == multiset(b)
    ensures |a| == |b|
    ensures forall x :: x in a <==> x in b
  {
    assert |a| == |multiset(a)| == |b|;
    forall x ensures x in a <==> x in b {
      assert x in a <==> x in multiset(a);
      assert x in b <==> x in multiset(b);
    }
  }

  /** Reordering rows does not change whether a unique constraint holds. */
  lemma PermutationKeepsDistinct<T(!new), K>(a: seq<T>, b: seq<T>, key: T -> K)
    requires multiset(a) == multiset(b)
    ensures DistinctBy(a, key) <==> DistinctBy(b, key)
  {
    PermutationSameElements(a, b);
    assert KeySet(a, key) == KeySet(b, key);
    DistinctIffCard(a, key);
    DistinctIffCard(b, key);
  }

  lemma {:induction false} FilterDistinct<T(!new), K>(s: seq<T>, keep: T -> bool, key: T -> K)
    requires DistinctBy(s, key)
    ensures DistinctBy(Filter(s, keep), key)
  {
    if |s| > 0 {
      var rest := s[1..];
      assert DistinctBy(rest, key) by {
        forall i, j | 0 <= i < j < |rest| ensures key(rest[i]) != key(rest[j]) {
          assert rest[i] == s[i + 1] && rest[j] == s[j + 1];
        }
      }
      FilterDistinct(rest, keep, key);
      var fr := Filter(rest, keep);
      if keep(s[0]) {
        var r := [s[0]] + fr;
        forall i, j | 0 <= i < j < |r| ensures key(r[i]) != key(r[j]) {
          if i == 0 {
            assert r[j] == fr[j - 1] && r[j] in rest;
            var k :| 0 <= k < |rest| && rest[k] == r[j];
            assert s[k + 1] == r[j];
          } else {
            assert r[i] == fr[i - 1] && r[j] == fr[j - 1];
          }
        }
      }
    }
  }

  /** `le` is a total preorder: what `ORDER BY` needs of its comparison. */
  ghost predicate TotalPreorder<T(!new)>(le: (T, T) -> bool) {
    && (forall x, y :: le(x, y) || le(y, x))
    && (forall x, y, z :: le(x, y) && le(y, z) ==> le(x, z))
  }

  /** `s` lists its rows in the order `le`. */
  predicate Sorted<T>(s: seq<T>, le: (T, T) -> bool) {
    forall i, j :: 0 <= i < j < |s| ==> le(s[i], s[j])
  }

  lemma SortedTail<T(!new)>(s: seq<T>, le: (T, T) -> bool)
    requires Sorted(s, le) && |s| > 0
    ensures Sorted(s[1..], le)
    ensures forall y :: y in s[1..] ==> le(s[0], y)
  {
    forall y | y in s[1..] ensures le(s[0], y) {
      var k :| 0 <= k < |s[1..]| && s[1..][k] == y;
      assert s[k + 1] == y;
    }
  }

  lemma SortedCons<T(!new)>(x: T, t: seq<T>, le: (T, T) -> bool)
    requires Sorted(t, le)
    requires forall y :: y in t ==> le(x, y)
    ensures Sorted([x] + t, le)
  {
    var r := [x] + t;
    forall i, j | 0 <= i < j < |r| ensures le(r[i], r[j]) {
      assert r[j] == t[j - 1] && t[j - 1] in t;
      if i > 0 {
        assert r[i] == t[i - 1];
      }
    }
  }

  /** Restricting an ordered listing keeps it ordered. */
  lemma {:induction false} FilterSorted<T(!new)>(s: seq<T>, keep: T -> bool, le: (T, T) -> bool)
    requires Sorted(s, le)
    ensures Sorted(Filter(s, keep), le)
  {
    if |s| > 0 {
      SortedTail(s, le);
      FilterSorted(s[1..], keep, le);
      if keep(s[0]) {
        SortedCons(s[0], Filter(s[1..], keep), le);
      }
    }
  }

  /** Places `x` before the first row it does not follow. */
  function InsertSorted<T(!new)>(x: T, s: seq<T>, le: (T, T) -> bool): (r: seq<T>)
    requires TotalPreorder(le)
    requires Sorted(s, le)
    ensures multiset(r) == multiset(s) + multiset{x}
    ensures Sorted(r, le)
  {
    if |s| == 0 then [x]
    else
      assert s == [s[0]] + s[1..];
      SortedTail(s, le);
      if le(x, s[0]) then
        SortedCons(x, s, le);
        [x] + s
      else
        var rest := InsertSorted(x, s[1..], le);
        assert forall y :: y in rest ==> le(s[0], y) by {
          forall y | y in rest ensures le(s[0], y) {
            assert y in multiset(rest);
            assert y == x || y in multiset(s[1..]);
          }
        }
        SortedCons(s[0], rest, le);
        [s[0]] + rest
  }

  /** A listing of `s` in the order `le` (a SQL `ORDER BY`): the same rows, ordered. */
  function SortBy<T(!new)>(s: seq<T>, le: (T, T) -> bool): (r: seq<T>)
    requires TotalPreorder(le)
    ensures multiset(r) == multiset(s)
    ensures Sorted(r, le)
  {
    if |s| == 0 then []
    else
      assert s == [s[0]] + s[1..];
      InsertSorted(s[0], SortBy(s[1..], le), le)
  }

  /** No row appears twice. */
  predicate NoDuplicates<T(==)>(s: seq<T>) {
    forall i, j :: 0 <= i < j < |s| ==> s[i] != s[j]
  }

  function Differs<T(==,!new)>(y: T): T -> bool {
    x => x != y
  }

  /** A SQL `DISTINCT`: every row once, at its first position. */
  function Distinct<T(==,!new)>(s: seq<T>): (r: seq<T>)
    ensures forall x :: x in r <==> x in s
    ensures NoDuplicates(r)
    decreases |s|
  {
    if |s| == 0 then []
    else
      var rest := Distinct(Filter(s[1..], Differs(s[0])));
      assert forall j :: 0 <= j < |rest| ==> rest[j] != s[0] by {
        forall j | 0 <= j < |rest| ensures rest[j] != s[0] {
          assert rest[j] in rest;
        }
      }
      assert forall x :: x in s <==> x == s[0] || x in s[1..] by {
        assert s == [s[0]] + s[1..];
      }
      [s[0]] + rest
  }

  /** `DISTINCT` leaves a listing without repeated rows as it is. */
  lemma {:induction false} DistinctOfNoDuplicates<T(!new)>(s: seq<T>)
    requires NoDuplicates(s)
    ensures Distinct(s) == s
    decreases |s|
  {
    if |s| > 0 {
      var rest := s[1..];
      forall i | 0 <= i < |rest| ensures Differs(s[0])(rest[i]) {
        assert rest[i] == s[i + 1];
      }
      FilterAll(rest, Differs(s[0]));
      assert NoDuplicates(rest) by {
        forall i, j | 0 <= i < j < |rest| ensures rest[i] != rest[j] {
          assert rest[i] == s[i + 1] && rest[j] == s[j + 1];
        }
      }
      DistinctOfNoDuplicates(rest);
    }
  }

  function Self<T>(x: T): T { x }

  /** Reordering a listing without repeated rows gives one without repeated rows. */
  lemma PermutationKeepsNoDuplicates<T(!new)>(a: seq<T>, b: seq<T>)
    requires multiset(a) == multiset(b)
    requires NoDuplicates(a)
    ensures NoDuplicates(b)
  {
    assert DistinctBy(a, Self);
    PermutationKeepsDistinct(a, b, Self);
    assert DistinctBy(b, Self);
  }

  lemma {:induction false} DistinctSorted<T(!new)>(s: seq<T>, le: (T, T) -> bool)
    requires Sorted(s, le)
    ensures Sorted(Distinct(s), le)
    decreases |s|
  {
    if |s| > 0 {
      SortedTail(s, le);
      var fr := Filter(s[1..], Differs(s[0]));
      FilterSorted(s[1..], Differs(s[0]), le);
      DistinctSorted(fr, le);
      SortedCons(s[0], Distinct(fr), le);
    }
  }

  /** A fresh primary key: larger than every key in use. */
  function NextId<T(!new)>(s: seq<T>, id: T -> nat): (r: nat)
    ensures forall x :: x in s ==> id(x) < r
  {
    if |s| == 0 then 1
    else
      var rest := NextId(s[1..], id);
      assert forall x :: x in s ==> x == s[0] || x in s[1..] by {
        assert s == [s[0]] + s[1..];
      }
      if id(s[0]) < rest then rest else id(s[0]) + 1
  }
}

=== FILE: serializers.dfy ===
/** Ticket validation and the atomic creation of a reservation with its
    tickets, plus the `taken_places` field of the performance detail view. */
module Serializers {
  import opened Results
  import opened Seqs
  import opened Models

  /** One entry of a reservation's ticket list: the writable fields of a ticket. */
  datatype TicketRequest = TicketRequest(performance: nat, row: int, seat: int)

  /** The seat-bounds rule `Ticket.validate_tickets(row, seat, hall)`, whose
      definition is not part of this model: true when the seat is acceptable. */
  type SeatRule = (int, int, Hall) -> bool

  function RequestKey(q: TicketRequest): SeatKey {
    SeatKey(q.performance, q.row, q.seat)
  }

  // ---------------------------------------------------------------------
  // Validation of one ticket
  // ---------------------------------------------------------------------

  /** `TicketSerializer.validate`: the performance must resolve, and the seat
      rule is asked about the performance's hall. On success the data come
      back unchanged. */
  function ValidateTicket(db: Db, seatOk: SeatRule, q: TicketRequest): (r: Result<TicketRequest, Error>)
    ensures r.Success? ==> r.value == q
    ensures q.performance !in PerformanceIds(db) ==> r == Failure(UnknownPerformance(q.performance))
    ensures r.Success? ==> exists p, h ::
      p in db.performances && p.id == q.performance && h in db.halls && h.id == p.hall && seatOk(q.row, q.seat, h)
    ensures r.Failure? ==>
      r.error.UnknownPerformance? || r.error.UnknownHall? || r.error == SeatRejected(q.row, q.seat)
  {
    match FindPerformance(db, q.performance)
    case None => Failure(UnknownPerformance(q.performance))
    case Some(p) =>
      match FindHall(db, p.hall)
      case None => Failure(UnknownHall(p.hall))
      case Some(h) =>
        if seatOk(q.row, q.seat, h) then Success(q) else Failure(SeatRejected(q.row, q.seat))
  }

  /** In a well-formed database a ticket passes validation exactly when its
      performance exists and the seat rule accepts the seat in that
      performance's hall. */
  lemma ValidateTicketIff(db: Db, seatOk: SeatRule, q: TicketRequest)
    requires Wf(db)
    ensures ValidateTicket(db, seatOk, q).Success? <==>
      exists p, h :: p in db.performances && p.id == q.performance && h in db.halls && h.id == p.hall
                     && seatOk(q.row, q.seat, h)
    ensures q.performance in PerformanceIds(db) ==>
      (ValidateTicket(db, seatOk, q).Failure? <==> ValidateTicket(db, seatOk, q) == Failure(SeatRejected(q.row, q.seat)))
  {
    if exists p, h :: p in db.performances && p.id == q.performance && h in db.halls && h.id == p.hall
                      && seatOk(q.row, q.seat, h) {
      var p, h :| p in db.performances && p.id == q.performance && h in db.halls && h.id == p.hall
                  && seatOk(q.row, q.seat, h);
      var p' := FindPerformance(db, q.performance).value;
      DistinctKeyIdentifies(db.performances, PerformanceId, p, p');
      var h' := FindHall(db, p.hall).value;
      DistinctKeyIdentifies(db.halls, HallId, h, h');
    }
    if q.performance in PerformanceIds(db) {
      var p := FindPerformance(db, q.performance).value;
      assert p.hall in HallIds(db);
    }
  }

  /** Every entry of the ticket list validated. The list is valid exactly
      when every entry is; a failure carries the error of some entry. */
  function ValidateAll(db: Db, seatOk: SeatRule, qs: seq<TicketRequest>): (r: Result<seq<TicketRequest>, Error>)
    ensures r.Success? <==> forall i :: 0 <= i < |qs| ==> ValidateTicket(db, seatOk, qs[i]).Success?
    ensures r.Success? ==> r.value == qs
    ensures r.Failure? ==> exists i :: 0 <= i < |qs| && ValidateTicket(db, seatOk, qs[i]) == Failure(r.error)
  {
    if |qs| == 0 then Success(qs)
    else
      match ValidateTicket(db, seatOk, qs[0])
      case Failure(e) => Failure(e)
      case Success(_) =>
        match ValidateAll(db, seatOk, qs[1..])
        case Failure(e) =>
          assert exists i :: 0 <= i < |qs| && ValidateTicket(db, seatOk, qs[i]) == Failure(e) by {
            var i :| 0 <= i < |qs[1..]| && ValidateTicket(db, seatOk, qs[1..][i]) == Failure(e);
            assert qs[i + 1] == qs[1..][i];
          }
          Failure(e)
        case Success(_) =>
          assert forall i :: 0 < i < |qs| ==> qs[i] == qs[1..][i - 1];
          Success(qs)
  }

  // ---------------------------------------------------------------------
  // Inserting tickets under the unique constraint
  // ---------------------------------------------------------------------

  /** One `INSERT` into the ticket table: rejected when the seat key is taken. */
  function InsertTicket(ts: seq<Ticket>, t: Ticket): (r: Result<seq<Ticket>, Error>)
    ensures r.Success? <==> KeyOf(t) !in KeySet(ts, KeyOf)
    ensures r.Success? ==> r.value == ts + [t]
    ensures r.Failure? ==> r.error == SeatAlreadyTaken(t.performance, t.row, t.seat)
  {
    if Find(ts, KeyOf, KeyOf(t)).Some? then Failure(SeatAlreadyTaken(t.performance, t.row, t.seat))
    else Success(ts + [t])
  }

  /** The rows of a `bulk_create`, inserted one after another; the first
      rejected row aborts the whole statement. */
  function InsertAll(ts: seq<Ticket>, batch: seq<Ticket>): (r: Result<seq<Ticket>, Error>)
    ensures r.Success? ==> r.value == ts + batch
    ensures r.Failure? ==> exists t :: t in batch && r.error == SeatAlreadyTaken(t.performance, t.row, t.seat)
    decreases |batch|
  {
    if |batch| == 0 then Success(ts)
    else
      match InsertTicket(ts, batch[0])
      case Failure(e) =>
        assert batch[0] in batch;
        Failure(e)
      case Success(ts') =>
        var r := InsertAll(ts', batch[1..]);
        assert r.Success? ==> r.value == ts + batch by {
          assert ts' + batch[1..] == ts + batch;
        }
        assert forall t :: t in batch[1..] ==> t in batch;
        r
  }

  /** The batch goes in exactly when no entry's key is already sold and no
      two entries share a key. */
  lemma {:induction false} InsertAllIff(ts: seq<Ticket>, batch: seq<Ticket>)
    ensures InsertAll(ts, batch).Success? <==>
      SeatsUnique(batch) && KeySet(ts, KeyOf) !! KeySet(batch, KeyOf)
    decreases |batch|
  {
    if |batch| == 0 {
      assert KeySet(batch, KeyOf) == {};
    } else {
      var x := batch[0];
      var rest := batch[1..];
      assert batch == [x] + rest;
      InsertAllIff(ts + [x], rest);
      KeySetConcat(ts, [x], KeyOf);
      KeySetConcat([x], rest, KeyOf);
      DistinctConcat([x], rest, KeyOf);
      assert KeySet([x], KeyOf) == {KeyOf(x)};
    }
  }

  /** Over a table that satisfies the constraint, the batch goes in exactly
      when the table with the batch appended still satisfies it. */
  lemma InsertAllKeepsUnique(ts: seq<Ticket>, batch: seq<Ticket>)
    requires SeatsUnique(ts)
    ensures InsertAll(ts, batch).Success? <==> SeatsUnique(ts + batch)
  {
    InsertAllIff(ts, batch);
    DistinctConcat(ts, batch, KeyOf);
  }

  /** The ticket insertion of one reservation, against the database. */
  function InsertBatch(db: Db, batch: seq<Ticket>): (r: Result<Db, Error>)
    ensures r.Success? ==> r.value == db.(tickets := db.tickets + batch)
    ensures r.Success? <==> SeatsUnique(batch) && KeySet(db.tickets, KeyOf) !! KeySet(batch, KeyOf)
    ensures r.Failure? ==> exists t :: t in batch && r.error == SeatAlreadyTaken(t.performance, t.row, t.seat)
  {
    InsertAllIff(db.tickets, batch);
    match InsertAll(db.tickets, batch)
    case Failure(e) => Failure(e)
    case Success(ts) => Success(db.(tickets := ts))
  }

  // ---------------------------------------------------------------------
  // Creating a reservation
  // ---------------------------------------------------------------------

  /** The ticket rows of reservation `id`: one per entry, in entry order. */
  function TicketsFor(qs: seq<TicketRequest>, id: nat): (ts: seq<Ticket>)
    ensures |ts| == |qs|
    ensures forall i :: 0 <= i < |qs| ==> KeyOf(ts[i]) == RequestKey(qs[i]) && ts[i].reservation == id
  {
    seq(|qs|, i requires 0 <= i < |qs| => Ticket(qs[i].row, qs[i].seat, qs[i].performance, id))
  }

  /** The rows of a reservation carry exactly the requested seat keys, and
      they satisfy the unique constraint exactly when the entries do. */
  lemma TicketsForKeys(qs: seq<TicketRequest>, id: nat)
    ensures KeySet(TicketsFor(qs, id), KeyOf) == KeySet(qs, RequestKey)
    ensures SeatsUnique(TicketsFor(qs, id)) <==> DistinctBy(qs, RequestKey)
  {
    var ts := TicketsFor(qs, id);
    forall k | k in KeySet(qs, RequestKey) ensures k in KeySet(ts, KeyOf) {
      var q :| q in qs && RequestKey(q) == k;
      var i :| 0 <= i < |qs| && qs[i] == q;
      assert ts[i] in ts;
    }
    forall k | k in KeySet(ts, KeyOf) ensures k in KeySet(qs, RequestKey) {
      var t :| t in ts && KeyOf(t) == k;
      var i :| 0 <= i < |ts| && ts[i] == t;
      assert qs[i] in qs;
    }
  }

  /** The keys of `validated_data` when `perform_create` calls
      `save(user=...)`: the ticket list is declared read-only, so it is not
      among the validated data, and no field is named `reservation`; only
      the `user` keyword argument is there. */
  const SavedKeys: set<string> := {"user"}

  /** `ReservationSerializer.create` as written, up to its two `pop` calls
      on `validated_data`: popping a key that is not there raises `KeyError`. */
  function CreateAsWritten(keys: set<string>): (r: Result<(), Error>)
    ensures r.Success? <==> "tickets" in keys && "reservation" in keys
    ensures r.Failure? ==> r.error.MissingKey? && r.error.key !in keys
  {
    if "tickets" !in keys then Failure(MissingKey("tickets"))
    else if "reservation" !in keys then Failure(MissingKey("reservation"))
    else Success(())
  }

  /** As written, creating a reservation raises on its first `pop`, whatever
      tickets the request lists. */
  lemma CreateAsWrittenAlwaysFails()
    ensures CreateAsWritten(SavedKeys) == Failure(MissingKey("tickets"))
  {
    assert "tickets" != "user";
  }

  /** `perform_create` followed by `ReservationSerializer.create`: the entries
      are validated, a reservation owned by `user` and stamped `now` is
      created, and its tickets are bulk-inserted, all in one transaction.
      Any failure rolls the whole transaction back. */
  function CreateReservation(db: Db, seatOk: SeatRule, user: nat, now: Time, qs: seq<TicketRequest>)
    : (out: (Db, Result<Reservation, Error>))
    ensures out.1.Failure? ==> out.0 == db
    ensures |qs| == 0 ==> out.1 == Failure(EmptyReservation)
    ensures |qs| > 0 && ValidateAll(db, seatOk, qs).Failure? ==>
      out.1 == Failure(ValidateAll(db, seatOk, qs).error)
    ensures out.1.Success? ==>
      && out.1.value.user == user
      && out.1.value.createdAt == now
      && out.1.value.id !in ReservationIds(db)
      && out.0 == db.(reservations := db.reservations + [out.1.value],
                      tickets := db.tickets + TicketsFor(qs, out.1.value.id))
    ensures out.1.Success? ==> forall i :: 0 <= i < |qs| ==> ValidateTicket(db, seatOk, qs[i]).Success?
  {
    if |qs| == 0 then (db, Failure(EmptyReservation))
    else
      match ValidateAll(db, seatOk, qs)
      case Failure(e) => (db, Failure(e))
      case Success(_) =>
        var r := Reservation(NextId(db.reservations, ReservationId), now, user);
        match InsertBatch(db.(reservations := db.reservations + [r]), TicketsFor(qs, r.id))
        case Failure(e) => (db, Failure(e))
        case Success(db') => (db', Success(r))
  }

  /** A reservation is created exactly when it has entries, every entry
      validates, no two entries name the same seat and no entry's seat is
      already sold; when only the seats clash, the error names a clashing
      seat. */
  lemma CreateReservationIff(db: Db, seatOk: SeatRule, user: nat, now: Time, qs: seq<TicketRequest>)
    ensures CreateReservation(db, seatOk, user, now, qs).1.Success? <==>
      && |qs| > 0
      && (forall i :: 0 <= i < |qs| ==> ValidateTicket(db, seatOk, qs[i]).Success?)
      && DistinctBy(qs, RequestKey)
      && KeySet(db.tickets, KeyOf) !! KeySet(qs, RequestKey)
    ensures var out := CreateReservation(db, seatOk, user, now, qs);
      && |qs| > 0
      && (forall i :: 0 <= i < |qs| ==> ValidateTicket(db, seatOk, qs[i]).Success?)
      && out.1.Failure?
      ==> exists i :: 0 <= i < |qs| && out.1.error == SeatAlreadyTaken(qs[i].performance, qs[i].row, qs[i].seat)
  {
    if |qs| > 0 && ValidateAll(db, seatOk, qs).Success? {
      var r := Reservation(NextId(db.reservations, ReservationId), now, user);
      var ts := TicketsFor(qs, r.id);
      TicketsForKeys(qs, r.id);
      var res := InsertBatch(db.(reservations := db.reservations + [r]), ts);
      assert CreateReservation(db, seatOk, user, now, qs).1.Success? <==> res.Success?;
      if res.Failure? {
        var t :| t in ts && res.error == SeatAlreadyTaken(t.performance, t.row, t.seat);
        var i :| 0 <= i < |ts| && ts[i] == t;
        assert KeyOf(t) == RequestKey(qs[i]);
      }
    }
  }

  /** Creating a reservation keeps the database well formed. */
  lemma CreateReservationWf(db: Db, seatOk: SeatRule, user: nat, now: Time, qs: seq<TicketRequest>)
    requires Wf(db)
    ensures Wf(CreateReservation(db, seatOk, user, now, qs).0)
  {
    var out := CreateReservation(db, seatOk, user, now, qs);
    if out.1.Success? {
      var r := out.1.value;
      var db' := out.0;
      var ts := TicketsFor(qs, r.id);
      DistinctAppendOne(db.reservations, r, ReservationId);
      CreateReservationIff(db, seatOk, user, now, qs);
      TicketsForKeys(qs, r.id);
      DistinctConcat(db.tickets, ts, KeyOf);
      assert ReservationIds(db') == ReservationIds(db) + {r.id} by {
        KeySetConcat(db.reservations, [r], ReservationId);
        assert KeySet([r], ReservationId) == {r.id};
      }
      forall t | t in db'.tickets
        ensures t.performance in PerformanceIds(db') && t.reservation in ReservationIds(db')
      {
        if t !in db.tickets {
          assert t in ts;
          var i :| 0 <= i < |ts| && ts[i] == t;
          assert ValidateTicket(db, seatOk, qs[i]).Success?;
        }
      }
    }
  }

  /** A new reservation's tickets are exactly one per entry, and the tickets
      of every other reservation are untouched. */
  lemma CreateReservationTickets(db: Db, seatOk: SeatRule, user: nat, now: Time, qs: seq<TicketRequest>)
    requires Wf(db)
    requires CreateReservation(db, seatOk, user, now, qs).1.Success?
    ensures var out := CreateReservation(db, seatOk, user, now, qs);
      forall t :: t in out.0.tickets && t.reservation == out.1.value.id <==>
        exists i :: 0 <= i < |qs| && t == Ticket(qs[i].row, qs[i].seat, qs[i].performance, out.1.value.id)
    ensures var out := CreateReservation(db, seatOk, user, now, qs);
      forall t :: t in out.0.tickets && t.reservation != out.1.value.id <==> t in db.tickets
  {
    var out := CreateReservation(db, seatOk, user, now, qs);
    var id := out.1.value.id;
    var ts := TicketsFor(qs, id);
    forall t | t in db.tickets ensures t.reservation != id {
      assert t.reservation in ReservationIds(db);
    }
    forall t | t in ts ensures exists i :: 0 <= i < |qs| && t == Ticket(qs[i].row, qs[i].seat, qs[i].performance, id) {
      var i :| 0 <= i < |ts| && ts[i] == t;
    }
    forall i | 0 <= i < |qs| ensures Ticket(qs[i].row, qs[i].seat, qs[i].performance, id) in ts {
      assert ts[i] == Ticket(qs[i].row, qs[i].seat, qs[i].performance, id);
    }
  }

  /** Booking one free seat that validates succeeds, and the seat is then
      sold. */
  lemma BookFreeSeat(db: Db, seatOk: SeatRule, user: nat, now: Time, q: TicketRequest)
    requires Wf(db)
    requires ValidateTicket(db, seatOk, q).Success?
    requires RequestKey(q) !in KeySet(db.tickets, KeyOf)
    ensures var out := CreateReservation(db, seatOk, user, now, [q]);
      && out.1.Success?
      && Wf(out.0)
      && out.0.performances == db.performances && out.0.halls == db.halls
      && exists t :: t in out.0.tickets && KeyOf(t) == RequestKey(q)
  {
    var qs := [q];
    assert KeySet(qs, RequestKey) == {RequestKey(q)};
    CreateReservationIff(db, seatOk, user, now, qs);
    CreateReservationWf(db, seatOk, user, now, qs);
    var out := CreateReservation(db, seatOk, user, now, qs);
    var t := Ticket(q.row, q.seat, q.performance, out.1.value.id);
    assert TicketsFor(qs, out.1.value.id) == [t];
    assert out.0.tickets[|db.tickets|] == t;
  }

  /** Booking a seat that is already sold fails with `SeatAlreadyTaken` and
      changes nothing. */
  lemma BookTakenSeat(db: Db, seatOk: SeatRule, user: nat, now: Time, q: TicketRequest)
    requires ValidateTicket(db, seatOk, q).Success?
    requires RequestKey(q) in KeySet(db.tickets, KeyOf)
    ensures CreateReservation(db, seatOk, user, now, [q]) == (db, Failure(SeatAlreadyTaken(q.performance, q.row, q.seat)))
  {
    var qs := [q];
    assert KeySet(qs, RequestKey) == {RequestKey(q)};
    CreateReservationIff(db, seatOk, user, now, qs);
  }

  /** Two customers booking the same free seat one after the other: the
      first booking succeeds, the second fails with `SeatAlreadyTaken` and
      leaves the database as the first left it, with one ticket for the seat. */
  lemma SameSeatTwice(db: Db, seatOk: SeatRule, u1: nat, t1: Time, u2: nat, t2: Time, q: TicketRequest)
    requires Wf(db)
    requires ValidateTicket(db, seatOk, q).Success?
    requires RequestKey(q) !in KeySet(db.tickets, KeyOf)
    ensures var first := CreateReservation(db, seatOk, u1, t1, [q]);
      && first.1.Success?
      && var second := CreateReservation(first.0, seatOk, u2, t2, [q]);
      && second == (first.0, Failure(SeatAlreadyTaken(q.performance, q.row, q.seat)))
      && SeatsUnique(second.0.tickets)
      && exists t :: t in second.0.tickets && KeyOf(t) == RequestKey(q)
  {
    BookFreeSeat(db, seatOk, u1, t1, q);
    var db1 := CreateReservation(db, seatOk, u1, t1, [q]).0;
    assert ValidateTicket(db1, seatOk, q) == ValidateTicket(db, seatOk, q);
    BookTakenSeat(db1, seatOk, u2, t2, q);
  }

  // ---------------------------------------------------------------------
  // The `taken_places` field
  // ---------------------------------------------------------------------

  /** The (row, seat) pairs of tickets, as `TicketSeatsSerializer` shows them. */
  function Places(ts: seq<Ticket>): (ps: seq<Place>)
    ensures |ps| == |ts|
    ensures forall i :: 0 <= i < |ts| ==> ps[i] == PlaceOf(ts[i])
  {
    seq(|ts|, i requires 0 <= i < |ts| => PlaceOf(ts[i]))
  }

  lemma PlacesMembership(ts: seq<Ticket>)
    ensures forall pl :: pl in Places(ts) <==> exists t :: t in ts && PlaceOf(t) == pl
  {
    var r := Places(ts);
    forall pl ensures pl in r <==> exists t :: t in ts && PlaceOf(t) == pl {
      if pl in r {
        var i :| 0 <= i < |r| && r[i] == pl;
        assert ts[i] in ts;
      }
      if exists t :: t in ts && PlaceOf(t) == pl {
        var t :| t in ts && PlaceOf(t) == pl;
        var i :| 0 <= i < |ts| && ts[i] == t;
        assert r[i] == pl;
      }
    }
  }

  /** Showing the places of a concatenation shows each part's places. */
  lemma PlacesAppend(a: seq<Ticket>, b: seq<Ticket>)
    ensures Places(a + b) == Places(a) + Places(b)
  {
  }

  /** Taking the ticket at `k` out takes its place out. */
  lemma PlacesRemoveAt(b: seq<Ticket>, k: nat)
    requires k < |b|
    ensures multiset(b[..k] + b[k + 1..]) == multiset(b) - multiset{b[k]}
    ensures multiset(Places(b)) == multiset(Places(b[..k] + b[k + 1..])) + multiset{PlaceOf(b[k])}
  {
    var pre, post := b[..k], b[k + 1..];
    assert b == pre + [b[k]] + post;
    PlacesAppend(pre + [b[k]], post);
    PlacesAppend(pre, [b[k]]);
    PlacesAppend(pre, post);
  }

  /** Reordering the tickets reorders their places: the same places, as
      often each. */
  lemma {:induction false} PlacesPermutation(a: seq<Ticket>, b: seq<Ticket>)
    requires multiset(a) == multiset(b)
    ensures multiset(Places(a)) == multiset(Places(b))
    decreases |a|
  {
    if |a| == 0 {
      assert |b| == |multiset(b)| == 0;
    } else {
      assert a[0] in multiset(b);
      var k :| 0 <= k < |b| && b[k] == a[0];
      var rest := b[..k] + b[k + 1..];
      PlacesRemoveAt(a, 0);
      assert a[..0] + a[1..] == a[1..];
      PlacesRemoveAt(b, k);
      assert multiset(rest) == multiset(a[1..]);
      PlacesPermutation(a[1..], rest);
      assert multiset(Places(a)) == multiset(Places(a[1..])) + multiset{PlaceOf(a[0])};
      assert multiset(Places(b)) == multiset(Places(rest)) + multiset{PlaceOf(a[0])};
    }
  }

  /** Among the tickets of one performance, the seat alone is a key. */
  lemma PlaceIsKey(ts: seq<Ticket>, id: nat)
    requires SeatsUnique(ts)
    ensures DistinctBy(TicketsOf(ts, id), PlaceOf)
  {
    FilterDistinct(ts, ForPerformance(id), KeyOf);
    var r := TicketsOf(ts, id);
    forall i, j | 0 <= i < j < |r| ensures PlaceOf(r[i]) != PlaceOf(r[j]) {
      assert r[i] in r && r[j] in r;
    }
  }

  /** `taken_places` of a performance: the seats of its tickets, ordered by
      row and then seat, one entry per ticket. */
  function TakenPlaces(db: Db, id: nat): (r: seq<Place>)
    ensures |r| == |TicketsOf(db.tickets, id)|
    ensures multiset(r) == multiset(Places(TicketsOf(db.tickets, id)))
    ensures forall pl :: pl in r <==> exists t :: t in db.tickets && t.performance == id && PlaceOf(t) == pl
    ensures forall i, j :: 0 <= i < j < |r| ==>
      r[i].row < r[j].row || (r[i].row == r[j].row && r[i].seat <= r[j].seat)
    ensures SeatsUnique(db.tickets) ==> NoDuplicates(r)
  {
    var mine := TicketsOf(db.tickets, id);
    var sorted := ListTickets(mine);
    PermutationSameElements(mine, sorted);
    var r := Places(sorted);
    PlacesPermutation(sorted, mine);
    PlacesMembership(sorted);
    assert SeatsUnique(db.tickets) ==> NoDuplicates(r) by {
      if SeatsUnique(db.tickets) {
        PlaceIsKey(db.tickets, id);
        PermutationKeepsDistinct(mine, sorted, PlaceOf);
      }
    }
    r
  }
}

=== FILE: text.dfy ===
/** String primitives the views rely on: case-insensitive containment
    (the `__icontains` lookup), `str.split`, Python's `int()` on a string,
    and the lexicographic order used for `ORDER BY title`. */
module Text {
  import Seqs
  import opened Results

  // ---------------------------------------------------------------------
  // Case-insensitive containment
  // ---------------------------------------------------------------------

  /** ASCII upper-casing of one character; other characters are unchanged. */
  function UpperChar(c: char): (u: char)
    ensures 'a' <= c <= 'z' ==> 'A' <= u <= 'Z' && u as int == c as int - 32
    ensures !('a' <= c <= 'z') ==> u == c
  {
    if 'a' <= c <= 'z' then (c as int - 32) as char else c
  }

  function Upper(s: string): (u: string)
    ensures |u| == |s|
    ensures forall i :: 0 <= i < |s| ==> u[i] == UpperChar(s[i])
  {
    if |s| == 0 then [] else [UpperChar(s[0])] + Upper(s[1..])
  }

  /** `needle` occurs in `hay` at position `i`. */
  ghost predicate OccursAt(needle: string, hay: string, i: int) {
    0 <= i && i + |needle| <= |hay| && hay[i..i + |needle|] == needle
  }

  /** Substring search, decided by scanning `hay` from the left. */
  function Contains(hay: string, needle: string): (b: bool)
    ensures b <==> exists i :: OccursAt(needle, hay, i)
    decreases |hay|
  {
    if |needle| <= |hay| && hay[..|needle|] == needle then
      assert OccursAt(needle, hay, 0);
      true
    else if |hay| == 0 then
      false
    else
      var b := Contains(hay[1..], needle);
      assert b ==> exists i :: OccursAt(needle, hay, i) by {
        if b {
          var i :| OccursAt(needle, hay[1..], i);
          assert hay[1..][i..i + |needle|] == hay[i + 1..i + 1 + |needle|];
          assert OccursAt(needle, hay, i + 1);
        }
      }
      assert (exists i :: OccursAt(needle, hay, i)) ==> b by {
        if exists i :: OccursAt(needle, hay, i) {
          var i :| OccursAt(needle, hay, i);
          assert i != 0;
          assert hay[1..][i - 1..i - 1 + |needle|] == hay[i..i + |needle|];
          assert OccursAt(needle, hay[1..], i - 1);
        }
      }
      b
  }

  /** The `__icontains` lookup: containment after upper-casing both sides. */
  function IContains(hay: string, needle: string): (b: bool)
    ensures |needle| == 0 ==> b
    ensures b ==> |needle| <= |hay|
  {
    assert |needle| == 0 ==> OccursAt(Upper(needle), Upper(hay), 0);
    Contains(Upper(hay), Upper(needle))
  }

  lemma IContainsIgnoresCase(hay: string, needle: string)
    ensures IContains(Upper(hay), needle) == IContains(hay, needle)
    ensures IContains(hay, Upper(needle)) == IContains(hay, needle)
  {
    UpperIdempotent(hay);
    UpperIdempotent(needle);
  }

  /** Every string contains itself, whatever the case. */
  lemma IContainsSelf(s: string)
    ensures IContains(s, s)
  {
    assert Upper(s)[0..|Upper(s)|] == Upper(s);
    assert OccursAt(Upper(s), Upper(s), 0);
  }

  lemma UpperIdempotent(s: string)
    ensures Upper(Upper(s)) == Upper(s)
  {
    assert forall i :: 0 <= i < |s| ==> Upper(Upper(s))[i] == Upper(s)[i];
  }

  // ---------------------------------------------------------------------
  // str.split on one separator character, and its inverse
  // ---------------------------------------------------------------------

  function CountChar(s: string, c: char): nat {
    if |s| == 0 then 0 else (if s[0] == c then 1 else 0) + CountChar(s[1..], c)
  }

  /** The pieces glued back together with `sep` between neighbours. */
  function Join(parts: seq<string>, sep: char): string
    requires |parts| > 0
  {
    if |parts| == 1 then parts[0] else parts[0] + [sep] + Join(parts[1..], sep)
  }

  /** Python's `s.split(sep)`: one more piece than there are separators,
      empty pieces kept. */
  function Split(s: string, sep: char): (parts: seq<string>)
    ensures |parts| == CountChar(s, sep) + 1
    ensures forall i :: 0 <= i < |parts| ==> sep !in parts[i]
    ensures Join(parts, sep) == s
    decreases |s|
  {
    if |s| == 0 then [""]
    else
      var rest := Split(s[1..], sep);
      assert s == [s[0]] + s[1..];
      if s[0] == sep then
        [""] + rest
      else
        var parts := [[s[0]] + rest[0]] + rest[1..];
        assert parts[1..] == rest[1..];
        assert forall i :: 1 <= i < |parts| ==> parts[i] == rest[i];
        parts
  }

  lemma {:induction false} SplitNoSeparator(p: string, sep: char)
    requires sep !in p
    ensures Split(p, sep) == [p]
    decreases |p|
  {
    if |p| > 0 {
      assert sep !in p[1..];
      SplitNoSeparator(p[1..], sep);
    }
  }

  lemma {:induction false} SplitAfterPiece(p: string, rest: string, sep: char)
    requires sep !in p
    ensures Split(p + [sep] + rest, sep) == [p] + Split(rest, sep)
    decreases |p|
  {
    var s := p + [sep] + rest;
    if |p| == 0 {
      assert s == [sep] + rest;
      assert s[1..] == rest;
    } else {
      assert s[1..] == p[1..] + [sep] + rest;
      assert sep !in p[1..];
      SplitAfterPiece(p[1..], rest, sep);
      assert [p[0]] + p[1..] == p;
    }
  }

  /** Splitting a join of separator-free pieces gives the pieces back. */
  lemma {:induction false} SplitJoin(parts: seq<string>, sep: char)
    requires |parts| > 0
    requires forall i :: 0 <= i < |parts| ==> sep !in parts[i]
    ensures Split(Join(parts, sep), sep) == parts
  {
    if |parts| == 1 {
      SplitNoSeparator(parts[0], sep);
    } else {
      SplitJoin(parts[1..], sep);
      SplitAfterPiece(parts[0], Join(parts[1..], sep), sep);
      assert [parts[0]] + parts[1..] == parts;
    }
  }

  // ---------------------------------------------------------------------
  // Python's int() applied to a string
  // ---------------------------------------------------------------------

  /** The whitespace `int()` skips around its digits: space, tab, line
      feed, vertical tab, form feed and carriage return (`Py_ISSPACE`). The
      separators 0x1C-0x1F, which `str.isspace` accepts, are not skipped. */
  predicate IsSpace(c: char) {
    c == ' ' || 9 <= c as int <= 13
  }

  predicate IsDigit(c: char) {
    '0' <= c <= '9'
  }

  function TrimStart(s: string): (t: string)
    ensures |t| <= |s| && t == s[|s| - |t|..]
    ensures |t| > 0 ==> !IsSpace(t[0])
    ensures |s| > 0 && !IsSpace(s[0]) ==> t == s
  {
    if |s| > 0 && IsSpace(s[0]) then TrimStart(s[1..]) else s
  }

  function TrimEnd(s: string): (t: string)
    ensures |t| <= |s| && t == s[..|t|]
    ensures |t| > 0 ==> !IsSpace(t[|t| - 1])
    ensures |s| > 0 && !IsSpace(s[|s| - 1]) ==> t == s
  {
    if |s| > 0 && IsSpace(s[|s| - 1]) then TrimEnd(s[..|s| - 1]) else s
  }

  /** Skipped whitespace holds no digit. */
  lemma {:induction false} TrimStartKeepsDigits(s: string)
    ensures DigitCount(TrimStart(s)) == DigitCount(s)
    decreases |s|
  {
    if |s| > 0 && IsSpace(s[0]) {
      TrimStartKeepsDigits(s[1..]);
    }
  }

  lemma {:induction false} TrimEndKeepsDigits(s: string)
    ensures DigitCount(TrimEnd(s)) == DigitCount(s)
    decreases |s|
  {
    if |s| > 0 && IsSpace(s[|s| - 1]) {
      assert s == s[..|s| - 1] + [s[|s| - 1]];
      DigitCountAppend(s[..|s| - 1], [s[|s| - 1]]);
      TrimEndKeepsDigits(s[..|s| - 1]);
    }
  }

  lemma StripKeepsDigits(s: string)
    ensures DigitCount(Strip(s)) == DigitCount(s)
  {
    TrimStartKeepsDigits(s);
    TrimEndKeepsDigits(TrimStart(s));
  }

  /** The text with the whitespace `int()` skips removed from both ends. */
  function Strip(s: string): string {
    TrimEnd(TrimStart(s))
  }

  predicate DoubleUnderscoreAt(b: string, i: int)
    requires 0 <= i < |b| - 1
  {
    b[i] == '_' && b[i + 1] == '_'
  }

  /** Decimal digits with single underscores between them, as `int()` accepts. */
  predicate DigitGroups(b: string) {
    && |b| > 0
    && IsDigit(b[0])
    && IsDigit(b[|b| - 1])
    && (forall i :: 0 <= i < |b| ==> IsDigit(b[i]) || b[i] == '_')
    && (forall i :: 0 <= i < |b| - 1 ==> !DoubleUnderscoreAt(b, i))
  }

  function NotUnderscore(c: char): bool {
    c != '_'
  }

  function DigitValue(c: char): int {
    c as int - '0' as int
  }

  /** The value of a string of decimal digits, most significant first. */
  function DigitsValue(ds: string): int
  {
    if |ds| == 0 then 0 else DigitsValue(ds[..|ds| - 1]) * 10 + DigitValue(ds[|ds| - 1])
  }

  /** The most digits `int()` converts from a decimal string, and `str()`
      writes: `sys.int_info.default_max_str_digits`. Underscores do not
      count; leading zeros do. */
  const MaxStrDigits: nat := 4300

  /** The value of digit groups, or `None` when `body` is not digit groups. */
  function ParseMagnitude(body: string): Option<int> {
    if DigitGroups(body) then Some(DigitsValue(Seqs.Filter(body, NotUnderscore))) else None
  }

  /** The number of decimal digits in `t`. */
  function DigitCount(t: string): nat
    decreases |t|
  {
    if |t| == 0 then 0 else (if IsDigit(t[0]) then 1 else 0) + DigitCount(t[1..])
  }

  lemma {:induction false} DigitCountAppend(a: string, b: string)
    ensures DigitCount(a + b) == DigitCount(a) + DigitCount(b)
    decreases |a|
  {
    if |a| == 0 {
      assert a + b == b;
    } else {
      assert (a + b)[0] == a[0] && (a + b)[1..] == a[1..] + b;
      DigitCountAppend(a[1..], b);
    }
  }

  lemma {:induction false} DigitCountAll(ds: string)
    requires forall i :: 0 <= i < |ds| ==> IsDigit(ds[i])
    ensures DigitCount(ds) == |ds|
    decreases |ds|
  {
    if |ds| > 0 {
      DigitCountAll(ds[1..]);
    }
  }

  function Negated(o: Option<int>): Option<int> {
    if o.Some? then Some(-o.value) else None
  }

  /** `int()` on text with no surrounding whitespace: an optional sign, then digit groups. */
  function ParseSigned(t: string): Option<int> {
    if |t| == 0 then None
    else if t[0] == '-' then Negated(ParseMagnitude(t[1..]))
    else if t[0] == '+' then ParseMagnitude(t[1..])
    else ParseMagnitude(t)
  }

  /** Python's `int(text)` for base 10: surrounding whitespace ignored, an
      optional sign, then digit groups of at most `MaxStrDigits` digits;
      anything else raises `ValueError`. */
  function ParseInt(text: string): (r: Option<int>)
    ensures |Strip(text)| == 0 ==> r.None?
    ensures DigitCount(text) > MaxStrDigits ==> r.None?
  {
    var t := Strip(text);
    assert DigitCount(t) == DigitCount(text) by {
      StripKeepsDigits(text);
    }
    if DigitCount(t) > MaxStrDigits then None else ParseSigned(t)
  }

  function DigitChar(d: int): char
    requires 0 <= d < 10
  {
    ('0' as int + d) as char
  }

  /** The decimal rendering of a natural number, without leading zeros. */
  function ShowNat(n: nat): (s: string)
    ensures |s| > 0
    ensures forall i :: 0 <= i < |s| ==> IsDigit(s[i])
  {
    if n < 10 then [DigitChar(n)] else ShowNat(n / 10) + [DigitChar(n % 10)]
  }

  /** `n` has at most `MaxStrDigits` digits, so `str(n)` renders it. */
  predicate WithinStrDigits(n: int) {
    |ShowNat(if n < 0 then -n else n)| <= MaxStrDigits
  }

  /** Python's `str(n)` for an integer within `MaxStrDigits` digits. */
  function ShowInt(n: int): string {
    if n < 0 then "-" + ShowNat(-n) else ShowNat(n)
  }

  /** `str(n)` is made of digits and a leading minus sign only. */
  lemma ShowIntChars(n: int)
    ensures forall i :: 0 <= i < |ShowInt(n)| ==> ShowInt(n)[i] == '-' || IsDigit(ShowInt(n)[i])
  {
    if n < 0 {
      var t := ShowNat(-n);
      assert forall i :: 0 < i < |ShowInt(n)| ==> ShowInt(n)[i] == t[i - 1];
    }
  }

  lemma {:induction false} DigitsValueShowNat(n: nat)
    ensures DigitsValue(ShowNat(n)) == n
  {
    if n >= 10 {
      DigitsValueShowNat(n / 10);
      var s := ShowNat(n);
      assert s[..|s| - 1] == ShowNat(n / 10);
    }
  }

  lemma StripUnpadded(s: string)
    requires |s| > 0 && !IsSpace(s[0]) && !IsSpace(s[|s| - 1])
    ensures Strip(s) == s
  {
  }

  lemma ParseDigits(digits: string)
    requires |digits| > 0
    requires forall i :: 0 <= i < |digits| ==> IsDigit(digits[i])
    ensures ParseMagnitude(digits) == Some(DigitsValue(digits))
  {
    Seqs.FilterAll(digits, NotUnderscore);
  }

  /** Text with nothing to strip and few enough digits goes straight to the
      sign and digit parse. */
  lemma ParseIntNoPadding(t: string)
    requires |t| > 0 && !IsSpace(t[0]) && !IsSpace(t[|t| - 1])
    requires DigitCount(t) <= MaxStrDigits
    ensures ParseInt(t) == ParseSigned(t)
  {
    StripUnpadded(t);
  }

  lemma ParseSignedPlain(t: string)
    requires |t| > 0 && t[0] != '-' && t[0] != '+'
    ensures ParseSigned(t) == ParseMagnitude(t)
  {
  }

  lemma ParseSignedMinus(digits: string)
    ensures ParseSigned(['-'] + digits) == Negated(ParseMagnitude(digits))
  {
    var s := ['-'] + digits;
    assert s[0] == '-' && s[1..] == digits;
  }

  /** What `int()` makes of an unpadded, unsigned run of digits. */
  lemma ParseUnsigned(digits: string)
    requires 0 < |digits| <= MaxStrDigits
    requires forall i :: 0 <= i < |digits| ==> IsDigit(digits[i])
    ensures ParseInt(digits) == Some(DigitsValue(digits))
  {
    DigitRun(digits);
    ParsePlain(digits);
  }

  /** Unpadded digit groups with no sign are parsed as one magnitude. */
  lemma ParsePlain(digits: string)
    requires |digits| > 0 && IsDigit(digits[0]) && IsDigit(digits[|digits| - 1])
    requires DigitCount(digits) <= MaxStrDigits
    ensures ParseInt(digits) == ParseMagnitude(digits)
  {
    ParseIntNoPadding(digits);
    ParseSignedPlain(digits);
  }

  /** The facts about a run of digits that parsing it needs. */
  lemma DigitRun(digits: string)
    requires |digits| > 0
    requires forall i :: 0 <= i < |digits| ==> IsDigit(digits[i])
    ensures IsDigit(digits[0]) && IsDigit(digits[|digits| - 1])
    ensures DigitCount(digits) == |digits|
    ensures ParseMagnitude(digits) == Some(DigitsValue(digits))
  {
    DigitCountAll(digits);
    ParseDigits(digits);
  }

  /** A minus sign followed by unpadded digit groups negates their magnitude. */
  lemma ParseMinus(digits: string)
    requires |digits| > 0 && IsDigit(digits[|digits| - 1])
    requires DigitCount(digits) <= MaxStrDigits
    ensures ParseInt(['-'] + digits) == Negated(ParseMagnitude(digits))
  {
    var s := ['-'] + digits;
    assert s[0] == '-' && s[|s| - 1] == digits[|digits| - 1];
    DigitCountAppend(['-'], digits);
    ParseIntNoPadding(s);
    ParseSignedMinus(digits);
  }

  lemma NegatedMagnitude(digits: string)
    requires ParseMagnitude(digits) == Some(DigitsValue(digits))
    ensures Negated(ParseMagnitude(digits)) == Some(-DigitsValue(digits))
  {
  }

  /** What `int()` makes of a minus sign followed by digits. */
  lemma ParseNegative(digits: string)
    requires 0 < |digits| <= MaxStrDigits
    requires forall i :: 0 <= i < |digits| ==> IsDigit(digits[i])
    ensures ParseInt(['-'] + digits) == Some(-DigitsValue(digits))
  {
    DigitRun(digits);
    ParseMinus(digits);
    NegatedMagnitude(digits);
  }

  /** `int()` refuses a string of more than `MaxStrDigits` digits and
      accepts one of exactly that many. */
  lemma ParseDigitLimit()
    ensures ParseInt(seq(MaxStrDigits + 1, _ => '1')).None?
    ensures ParseInt(seq(MaxStrDigits, _ => '1')).Some?
  {
    DigitCountAll(seq(MaxStrDigits + 1, _ => '1'));
    ParseUnsigned(seq(MaxStrDigits, _ => '1'));
  }

  /** Trailing whitespace is removed only up to a character that is not
      whitespace, so a text that starts with one keeps it. */
  lemma {:induction false} TrimEndKeepsFirst(s: string)
    requires |s| > 0 && !IsSpace(s[0])
    ensures |TrimEnd(s)| > 0 && TrimEnd(s)[0] == s[0]
    decreases |s|
  {
    if IsSpace(s[|s| - 1]) {
      assert |s| > 1;
      TrimEndKeepsFirst(s[..|s| - 1]);
    }
  }

  /** The separators 0x1C-0x1F are not whitespace to `int()`: text that
      starts with one raises whatever follows, as `int("\x1c5")` does. */
  lemma ParseFileSeparator(c: char, rest: string)
    requires 0x1C <= c as int <= 0x1F
    ensures ParseInt([c] + rest).None?
  {
    var s := [c] + rest;
    assert TrimStart(s) == s;
    TrimEndKeepsFirst(s);
    var t := Strip(s);
    assert |t| > 0 && t[0] == c && !IsDigit(t[0]);
    assert !DigitGroups(t);
  }

  /** `int("")` raises. */
  lemma ParseIntEmpty()
    ensures ParseInt("").None?
  {
    assert Strip("") == "";
  }

  /** `int(str(n)) == n`: the rendering of an integer that `str()` can
      write parses back to it. */
  lemma ParseShowInt(n: int)
    requires WithinStrDigits(n)
    ensures ParseInt(ShowInt(n)) == Some(n)
  {
    var m: nat := if n < 0 then -n else n;
    DigitsValueShowNat(m);
    if n < 0 {
      ParseNegative(ShowNat(m));
    } else {
      ParseUnsigned(ShowNat(m));
    }
  }

  // ---------------------------------------------------------------------
  // Lexicographic order on strings (by character code)
  // ---------------------------------------------------------------------

  predicate StrLe(a: string, b: string) {
    if |a| == 0 then true
    else if |b| == 0 then false
    else if a[0] != b[0] then a[0] < b[0]
    else StrLe(a[1..], b[1..])
  }

  lemma {:induction false} StrLeTotal(a: string, b: string)
    ensures StrLe(a, b) || StrLe(b, a)
  {
    if |a| > 0 && |b| > 0 && a[0] == b[0] {
      StrLeTotal(a[1..], b[1..]);
    }
  }

  lemma {:induction false} StrLeTransitive(a: string, b: string, c: string)
    requires StrLe(a, b) && StrLe(b, c)
    ensures StrLe(a, c)
  {
    if |a| > 0 && |b| > 0 && |c| > 0 && a[0] == b[0] && b[0] == c[0] {
      StrLeTransitive(a[1..], b[1..], c[1..]);
    }
  }
}
